=== FILE: README.md ===
# Peer locator, management result and CI build selection, modelled in Dafny

This project models three pieces of sequential logic from Apache Geode and proves properties of them.

1. **The peer locator (`GMSLocator`).** This is the membership locator a Geode process embeds. It does five things:
   - binds to the local membership services (`setMembershipManager`);
   - records the views the membership coordinator installs, and saves each one to a view file;
   - answers `GetViewRequest`s and `FindCoordinatorRequest`s from joining members;
   - at start-up, recovers its knowledge of the cluster from peer locators, falling back to the view file;
   - lists the members it knows (`getMembers`).

   The locator's fields form one immutable record (`LocatorData.LocatorState`). Every entry point is a transition from a state to a state, plus a return value or a thrown exception (`LocatorData.Step`). The view file lives on a modelled disk (`LocatorData.Host`).
2. **`ClusterManagementResult`.** This is the result object of a cluster management operation. It holds a status code, a message, the list of per-member realization reports and the returned elements. A failing member report forces `ERROR`, and `isSuccessful` means exactly `OK`.
3. **The build-selection and failure-scan helpers of the CI script `concourse_job_performance.py`:**
   - `sieve`, a stable partition by key that raises on an unknown key;
   - `get_builds_to_examine`, which keeps the completed builds, newest id first, cut to the requested count;
   - `list_and_sort_by_name`;
   - the per-line failure check and the per-build output scan, which count build-failure lines and collect, per failed test, the builds it failed in.

## Modules

The modules are spread across these files:

| file | module | contents |
|---|---|---|
| `wrappers.dfy` | `Wrappers` | `Option` and `Result` |
| `seqs.dfy` | `Seqs` | `Filter` and its lemmas, and first-match search |
| `views.dfy` | `Views` | member traits, `View`, and the `NetView` helpers the locator calls |
| `view_files.dfy` | `ViewFiles` | the view-file layout: stamp `0x7b8cf741`, version, payload |
| `locator_data.dfy` | `LocatorData` | locator state, services, requests, responses, faults |
| `persistence.dfy` | `Persistence` | `saveView` and `recoverFromFile` |
| `election.dfy` | `Election` | the coordinator choice in `processFindCoordinatorRequest` |
| `locator.dfy` | `Locator` | the locator's entry points |
| `management_result.dfy` | `ManagementResult` | `ClusterManagementResult` |
| `build_selection.dfy` | `BuildSelection` | `sieve`, `get_builds_to_examine`, `list_and_sort_by_name` |
| `failure_scan.dfy` | `FailureScan` | `check_line_for_failure`, `assess_event_output_for_failure` |

### Assumptions about code this model does not contain

- **Member identity** is a type parameter. The facts the locator asks of an identity are passed in as a `Views.MemberTraits` record:
  - `compareTo(o) < 0`;
  - `compareTo(o, false) == 0`;
  - the process kind is `LOCATOR`;
  - `preferredForCoordinator()`;
  - `isNetworkPartitionDetectionEnabled()`.

  Only two properties of the order are assumed:
  - the registrant scan relies on it being irreflexive and transitive (`Views.StrictOrder`);
  - the lemma that the scan's answer does not depend on set iteration order also needs it to be total (`Views.Connected`).
- **`NetView`** is not part of this model. Its helpers are modelled as follows:
  - `getCoordinator(rejections)`: the first member in view order that is preferred for coordinator and not rejected; failing that, the first member that is not rejected.
  - `remove(m)`: removes `m` and keeps the id and key map.
  - `getPublicKey(m)`: looks `m` up in the view's key map.
- **The messenger's public-key store** is a map held by the services. `setPublicKey` records a non-null key.
- **The locator's own key map** is keyed in the code by `InternalDistributedMemberWrapper`, which is not part of this model. Two assumptions are made about it:
  - two wrappers are equal exactly when the member ids they wrap are equal, so the map is keyed by the member id itself;
  - a wrapper of a null member id is a usable key, so an unbound locator stores the key of a request without a member id under the missing id (`LocatorData.LocatorState.publicKeys` is keyed by `Option` of an identity).
- **`TEST_FAILURE_REGEX`** is the parameter `FailureScan.TestMatcher`: a function from a line to an optional (class, method) pair. `BUILD_FAIL_REGEX` is the alternation of two literals, so it is modelled exactly, as substring containment.
- **Python build names** are modelled as integers, read with `int()`. Build counts are any integer, and Python's slice `[:n]` is modelled for negative `n` too.

### Where the code and its documentation disagree

In each case the model follows the code.

- The docstring of `check_line_for_failure` (and of the loop body of `assess_event_output_for_failure`) says the check returns true when no failure is found. The code returns true exactly when the line holds "BUILD FAILED" or "Test Failed!". `FailureScan.CheckLineForFailure` models the code: its result is true exactly when one of the two literals occurs in the line.
- `installView` (`GMSLocator.java:180-188`) accepts a view of any id, and nothing in the locator orders view ids. `Locator.InstallView` accepts any view.

## Model

| member | source | states |
|---|---|---|
| `Views.Remove` | geode-core/src/main/java/org/apache/geode/distributed/internal/membership/gms/locator/GMSLocator.java:143 | removing a member keeps the view id and keys, drops every copy of that member, keeps every copy of every other member in view order, and changes nothing when it is not a member |
| `Views.Coordinator` | geode-core/src/main/java/org/apache/geode/distributed/internal/membership/gms/locator/GMSLocator.java:284-289 | the view's coordinator is a member that was not rejected; there is none exactly when every member is rejected; every member before it in view order is rejected, or is not preferred while the coordinator is; a non-preferred coordinator is only chosen when no non-rejected member is preferred |
| `Views.ViewKey` | geode-core/src/main/java/org/apache/geode/distributed/internal/membership/gms/locator/GMSLocator.java:326-328 | the view yields a key exactly for a coordinator that has an entry in its key map, and then that entry |
| `ViewFiles.ViewImage` | geode-core/src/main/java/org/apache/geode/distributed/internal/membership/gms/locator/GMSLocator.java:347-350 | the written file (stamp, version, view) reads back as exactly that version and view |
| `ViewFiles.ParseImage` | geode-core/src/main/java/org/apache/geode/distributed/internal/membership/gms/locator/GMSLocator.java:437-450 | a file whose first int is not the stamp is "wrong stamp"; a well-formed file is stamped exactly when it holds the stamp, an int version and an object, whose values it returns |
| `LocatorData.NewLocator` | geode-core/src/main/java/org/apache/geode/distributed/internal/membership/gms/locator/GMSLocator.java:75-117 | a new locator keeps the given configuration and is unbound, with no views, registrants, keys or view file, and is not coordinator |
| `Persistence.SaveView` | geode-core/src/main/java/org/apache/geode/distributed/internal/membership/gms/locator/GMSLocator.java:339-357 | with persistence off nothing changes; a completed write leaves a file that reads back as the current version and the view; a failed write disables persistence; no other file is touched |
| `Persistence.RemoveLocators` | geode-core/src/main/java/org/apache/geode/distributed/internal/membership/gms/locator/GMSLocator.java:453-460 | walking a snapshot of the members keeps the id and the keys, drops the locator-kind members of the snapshot and keeps every other member |
| `Persistence.RemoveLocatorsFilters` | geode-core/src/main/java/org/apache/geode/distributed/internal/membership/gms/locator/GMSLocator.java:453-460 | for any snapshot, the walk that removes one locator at a time leaves exactly the members that are not locators of the snapshot, every copy, in view order |
| `Persistence.RecoveredForm` | geode-core/src/main/java/org/apache/geode/distributed/internal/membership/gms/locator/GMSLocator.java:450-460 | the recovered view has id -1 and the keys of the file's view, and its members are exactly that view's non-locator members, every copy, in view order |
| `Persistence.RecoveryFailure` | geode-core/src/main/java/org/apache/geode/distributed/internal/membership/gms/locator/GMSLocator.java:465-473 | an unreadable file is deleted if possible, otherwise persistence is disabled; recovery always throws naming the file |
| `Persistence.RecoverFromFile` | geode-core/src/main/java/org/apache/geode/distributed/internal/membership/gms/locator/GMSLocator.java:430-475 | a missing file or a wrong stamp returns false with nothing changed; a stamped file holding a readable view returns true, and that view, normalised, becomes the recovered view and nothing else changes; a malformed or undecodable file throws through the failure handler and changes nothing else; a null object first clears the recovered view, then throws through the handler |
| `Persistence.SaveThenRecover` | geode-core/src/main/java/org/apache/geode/distributed/internal/membership/gms/locator/GMSLocator.java:339-357 | recovering from a freshly saved file returns true with the saved view, normalised, and keeps persistence on |
| `Persistence.FailedWriteDisablesPersistence` | geode-core/src/main/java/org/apache/geode/distributed/internal/membership/gms/locator/GMSLocator.java:351-356 | after a failed write, every later save is a no-op |
| `Persistence.RecoverFromFileKeepsHintNonAuthoritative` | geode-core/src/main/java/org/apache/geode/distributed/internal/membership/gms/locator/GMSLocator.java:450-452 | file recovery never leaves a recovered view with a non-negative id |
| `Election.ScanRegistrants` | geode-core/src/main/java/org/apache/geode/distributed/internal/membership/gms/locator/GMSLocator.java:294-313 | in any iteration order, the result is the join-leave member id or an eligible registrant strictly below it, and no eligible registrant sorts strictly below the result |
| `Election.ScanOutcomeUnique` | geode-core/src/main/java/org/apache/geode/distributed/internal/membership/gms/locator/GMSLocator.java:301-310 | under a strict total order, the scan's promise admits one result only, so the set's iteration order does not matter |
| `Election.LowestEligibleIsChosen` | geode-core/src/main/java/org/apache/geode/distributed/internal/membership/gms/locator/GMSLocator.java:303-310 | the eligible registrant below the start and below every other eligible registrant is the one the scan returns |
| `Election.DropReusedIdentity` | geode-core/src/main/java/org/apache/geode/distributed/internal/membership/gms/locator/GMSLocator.java:272-282 | only the first view member sharing the requester's identity is removed, from a copy with the same id and keys; every member of another identity is kept; without such a member the view is returned as it was |
| `Election.ViewCandidate` | geode-core/src/main/java/org/apache/geode/distributed/internal/membership/gms/locator/GMSLocator.java:284-291 | for a view newer than the requester's last one the candidate is the view's coordinator with no rejections; for a view the requester has seen it is the view's coordinator that avoids the requester's rejections; either way it is a view member |
| `Election.NewerViewIgnoresRejections` | geode-core/src/main/java/org/apache/geode/distributed/internal/membership/gms/locator/GMSLocator.java:284-286 | for a view newer than the requester's last one, the answer is the same whatever the requester rejected: the view's unrestricted coordinator |
| `Election.SeenViewRespectsRejections` | geode-core/src/main/java/org/apache/geode/distributed/internal/membership/gms/locator/GMSLocator.java:287-288 | for a view the requester has seen, a rejected view coordinator is never proposed again |
| `Election.ApplySelfCoordinator` | geode-core/src/main/java/org/apache/geode/distributed/internal/membership/gms/locator/GMSLocator.java:315-323 | a coordinator locator names its own address; it keeps the view, with its from-view flag, exactly when its address is unknown or is the view's coordinator, and a dropped view clears the flag; a locator that is not coordinator changes nothing |
| `Election.CoordinatorKey` | geode-core/src/main/java/org/apache/geode/distributed/internal/membership/gms/locator/GMSLocator.java:325-331 | the coordinator's key comes from the response view when it has one, otherwise from the messenger's store, and there is none without a coordinator |
| `Locator.SetMembershipManager` | geode-core/src/main/java/org/apache/geode/distributed/internal/membership/gms/locator/GMSLocator.java:120-154 | while running services are bound it returns false and changes nothing; otherwise it binds and takes the local address, throwing if the messenger has none; with no join-leave view the old view, with id -100 and without the local address, becomes the hint (or the old hint loses the local address), and the local address is registered; the config, coordinator flag, view file and keys are kept |
| `Locator.BindIsOneShot` | geode-core/src/main/java/org/apache/geode/distributed/internal/membership/gms/locator/GMSLocator.java:120-121 | after a successful bind to running services, a second bind returns false and leaves the state unchanged |
| `Locator.BindKeepsHintNonAuthoritative` | geode-core/src/main/java/org/apache/geode/distributed/internal/membership/gms/locator/GMSLocator.java:136-144 | binding never leaves a recovered view with a valid (non-negative) id |
| `Locator.InstallView` | geode-core/src/main/java/org/apache/geode/distributed/internal/membership/gms/locator/GMSLocator.java:180-188 | installing a view clears the registrants and the recovered view, makes the view current and saves it (stamp, current version, view), or disables persistence if the write fails; the config, services, address, coordinator flag and keys are kept |
| `Locator.SetIsCoordinator` | geode-core/src/main/java/org/apache/geode/distributed/internal/membership/gms/locator/GMSLocator.java:191-197 | only the coordinator flag changes |
| `Locator.GetPublicKey` | geode-core/src/main/java/org/apache/geode/distributed/internal/membership/gms/locator/GMSLocator.java:369-371 | a member has a key exactly when an unbound locator stored one for it, and then it is that key |
| `Locator.ShutDown` | geode-core/src/main/java/org/apache/geode/distributed/internal/membership/gms/locator/GMSLocator.java:374-377 | shutting down clears the stored keys, so no member has one afterwards, and changes nothing else |
| `Locator.AnswerGetView` | geode-core/src/main/java/org/apache/geode/distributed/internal/membership/gms/locator/GMSLocator.java:210-213 | a `GetViewRequest` is answered with the current view exactly when there is one, and gets no response otherwise |
| `Locator.GetViewIgnoresRecoveredView` | geode-core/src/main/java/org/apache/geode/distributed/internal/membership/gms/locator/GMSLocator.java:210-213 | the recovered view never affects the answer to a `GetViewRequest` |
| `Locator.AfterServing` | geode-core/src/main/java/org/apache/geode/distributed/internal/membership/gms/locator/GMSLocator.java:245-267 | serving a request registers the requester, hands a supplied key to the messenger (and leaves the messenger's keys as they were when none is supplied), drops the requester from the recovered view and changes nothing else |
| `Locator.ResponseViewFor` | geode-core/src/main/java/org/apache/geode/distributed/internal/membership/gms/locator/GMSLocator.java:257-267 | the response view is the current view; without one it is the recovered view with the requester removed, and there is none without a recovered view |
| `Locator.SelectCoordinator` | geode-core/src/main/java/org/apache/geode/distributed/internal/membership/gms/locator/GMSLocator.java:269-323 | the view carried is the response view with a reused identity of the requester dropped; the coordinator is the one that view proposes (its own for a newer view, one avoiding rejections for a seen view); when it proposes none, the registrant scan decides; a coordinator locator names itself and keeps the view exactly when the view agrees or its address is unknown |
| `Locator.ServeFindCoordinator` | geode-core/src/main/java/org/apache/geode/distributed/internal/membership/gms/locator/GMSLocator.java:245-337 | a served request registers the requester and is answered from the response view or the registrants as coordinator selection decides, with this locator's address, the registrants after registration, the configuration flags, and the coordinator's key from the response view or else the messenger's store |
| `Locator.ProcessFindCoordinatorRequest` | geode-core/src/main/java/org/apache/geode/distributed/internal/membership/gms/locator/GMSLocator.java:223-337 | a mismatched DH algorithm gets a rejection message; an unbound locator only stores the caller's key and gives no response; a null member id gives no response; a served request registers the caller and answers with the coordinator that selection chooses, the view it carries, this locator's address, the registrants, the configuration flags and the coordinator's key |
| `Locator.RefreshLocalAddress` | geode-core/src/main/java/org/apache/geode/distributed/internal/membership/gms/locator/GMSLocator.java:205-207 | a missing local address is taken from the bound services' messenger; a known address, or an unbound locator, is left as it is; nothing else changes |
| `Locator.HandleFindCoordinator` | geode-core/src/main/java/org/apache/geode/distributed/internal/membership/gms/locator/GMSLocator.java:200-221 | a `FindCoordinatorRequest` is answered, after the address refresh, as `processFindCoordinatorRequest` answers it: a rejection for a mismatched DH algorithm; a served answer carrying the selected coordinator and its key, the carried view on a locator that is not coordinator, and on a coordinator locator the carried view exactly when its address is unknown or is that view's coordinator; otherwise a rejection or no response |
| `Locator.ProcessRequest` | geode-core/src/main/java/org/apache/geode/distributed/internal/membership/gms/locator/GMSLocator.java:200-221 | the local address is refreshed first, and a request other than `FindCoordinatorRequest` changes nothing else; a `GetViewRequest` gets the current view if there is one; a `FindCoordinatorRequest` is answered as `HandleFindCoordinator` answers it, including the selected coordinator, view and key of a served request; other requests get no response; the current view, coordinator flag and view file never change |
| `Locator.RecoverFromOtherLocators` | geode-core/src/main/java/org/apache/geode/distributed/internal/membership/gms/locator/GMSLocator.java:401-409 | the peers are tried in order and the first view reply wins; there is no view exactly when no peer replied with one |
| `Locator.Recover` | geode-core/src/main/java/org/apache/geode/distributed/internal/membership/gms/locator/GMSLocator.java:395-399 | a peer's view becomes the current view unchanged; without one the view file decides, and with no view file the read throws |
| `Locator.Init` | geode-core/src/main/java/org/apache/geode/distributed/internal/membership/gms/locator/GMSLocator.java:168-177 | the given view file, or else the default one, is chosen and kept; a peer's view becomes the current view and nothing else changes; without one the chosen file is read as `recoverFromFile` reads it; start-up can only fail with a corrupt view file, and never makes the recovered view authoritative |
| `Locator.InitRecoversSavedView` | geode-core/src/main/java/org/apache/geode/distributed/internal/membership/gms/locator/GMSLocator.java:168-177 | when no peer replies with a view and the chosen file holds a saved view, start-up succeeds and recovers that view with id -1 and without its locators, leaving the current view alone |
| `Locator.GetMembers` | geode-core/src/main/java/org/apache/geode/distributed/internal/membership/gms/locator/GMSLocator.java:379-387 | the current view's members, or else each registrant exactly once |
| `ManagementResult.NewResult` | geode-management/src/main/java/org/apache/geode/management/api/ClusterManagementResult.java:56-67 | a new result is OK and successful, with no message, member statuses or results |
| `ManagementResult.IsSuccessful` | geode-management/src/main/java/org/apache/geode/management/api/ClusterManagementResult.java:112-114 | a result is successful exactly when its code is OK; every other code, not only ERROR, reads as failure |
| `ManagementResult.SetStatus` | geode-management/src/main/java/org/apache/geode/management/api/ClusterManagementResult.java:91-96 | a failure forces ERROR and a success keeps the code; the message is replaced; nothing else changes |
| `ManagementResult.SetStatusCode` | geode-management/src/main/java/org/apache/geode/management/api/ClusterManagementResult.java:98-101 | any code and message are set; the member statuses and results are kept |
| `ManagementResult.NewResultWithSuccess` | geode-management/src/main/java/org/apache/geode/management/api/ClusterManagementResult.java:69-71 | the result is OK when constructed with success and ERROR otherwise, so it is successful exactly then |
| `ManagementResult.NewResultWithCode` | geode-management/src/main/java/org/apache/geode/management/api/ClusterManagementResult.java:73-76 | the result carries the given code and message and is successful exactly when the code is OK |
| `ManagementResult.AddMemberStatus` | geode-management/src/main/java/org/apache/geode/management/api/ClusterManagementResult.java:83-89 | exactly one report is appended and earlier ones are kept; a failed report forces ERROR and a successful one keeps the code |
| `ManagementResult.AddMemberStatusOf` | geode-management/src/main/java/org/apache/geode/management/api/ClusterManagementResult.java:78-81 | the report built from its parts is appended; a failed report forces ERROR and a successful one keeps the code; the message and the results are kept |
| `ManagementResult.SetResult` | geode-management/src/main/java/org/apache/geode/management/api/ClusterManagementResult.java:124-126 | only the result list changes |
| `ManagementResult.ErrorIsAbsorbing` | geode-management/src/main/java/org/apache/geode/management/api/ClusterManagementResult.java:83-96 | ERROR survives any member report and any `setStatus(boolean, ...)` |
| `ManagementResult.AggregatedStatus` | geode-management/src/main/java/org/apache/geode/management/api/ClusterManagementResult.java:83-89 | after a series of reports, they are appended in order; the code is ERROR if any report failed, and otherwise is unchanged |
| `ManagementResult.ErrorStaysAfterStatuses` | geode-management/src/main/java/org/apache/geode/management/api/ClusterManagementResult.java:86-88 | ERROR survives any series of reports |
| `ManagementResult.FreshResultSucceedsIffAllMembersDo` | geode-management/src/main/java/org/apache/geode/management/api/ClusterManagementResult.java:112-114 | a new result that has received reports is successful exactly when every report succeeded |
| `ManagementResult.SetStatusNeverRestoresSuccess` | geode-management/src/main/java/org/apache/geode/management/api/ClusterManagementResult.java:91-96 | after `setStatus(success, m)` the result is successful exactly when it was before and `success` holds |
| `BuildSelection.SieveLists` | ci/bin/concourse_job_performance.py:234-241 | one list per key, in key order, each exactly the items with that key, in input order |
| `BuildSelection.SieveListsTotal` | ci/bin/concourse_job_performance.py:234-241 | with distinct keys, the lists together are as long as the items whose key is among the keys |
| `BuildSelection.SieveListsPartition` | ci/bin/concourse_job_performance.py:236-241 | when every item's key is a known key, the lists together hold as many items as the input |
| `BuildSelection.Sieve` | ci/bin/concourse_job_performance.py:234-241 | it succeeds exactly when every item's key is known, and then returns the per-key lists; otherwise it fails with the first unknown key |
| `BuildSelection.InsertDesc` | ci/bin/concourse_job_performance.py:194 | inserting into a descending list keeps it descending and adds exactly the one element |
| `BuildSelection.SortDesc` | ci/bin/concourse_job_performance.py:194 | the result is a permutation of the input in non-increasing key order |
| `BuildSelection.TopPrefix` | ci/bin/concourse_job_performance.py:194-195 | a prefix of a descending list holds keys at least as large as everything after it |
| `BuildSelection.SliceTo` | ci/bin/concourse_job_performance.py:195 | Python's `[:n]` is a prefix: `n` elements (at most all) for non-negative `n`, all but the last `-n` for negative `n` |
| `BuildSelection.CompletedAreFinished` | ci/bin/concourse_job_performance.py:192-193 | the completed builds are the succeeded and failed ones only |
| `BuildSelection.SelectBuilds` | ci/bin/concourse_job_performance.py:194-208 | a selection is a non-empty prefix of the completed builds in descending id order; a positive count above the number of completed builds raises `RuntimeError` with the counts; a negative count drops that many of the oldest builds and succeeds exactly when some are left; an empty selection raises `IndexError` |
| `BuildSelection.SelectBuildsTakesNewest` | ci/bin/concourse_job_performance.py:194-195 | with a positive count the selection has exactly that many builds, none with a lower id than a completed build left out; with count 0 it holds every completed build |
| `BuildSelection.GetBuildsToExamine` | ci/bin/concourse_job_performance.py:184-213 | an unknown status raises `KeyError` exactly when one occurs, and the key is the status of the first build whose status is unknown; otherwise the selection is made from the completed builds and contains only succeeded or failed builds |
| `BuildSelection.SievedStatuses` | ci/bin/concourse_job_performance.py:190-193 | the first two sieve lists together are the completed builds |
| `BuildSelection.SelectedAreFinished` | ci/bin/concourse_job_performance.py:192-195 | every selected build has status succeeded or failed |
| `BuildSelection.ListAndSortByName` | ci/bin/concourse_job_performance.py:215-216 | the result is a permutation of the build names in non-increasing order |
| `FailureScan.ContainsIffOccurs` | ci/bin/concourse_job_performance.py:30 | the containment test holds exactly when the literal occurs at some position of the line |
| `FailureScan.LineEnd` | ci/bin/concourse_job_performance.py:84 | the first line ends at the first line separator, and contains none |
| `FailureScan.SplitLines` | ci/bin/concourse_job_performance.py:84 | an output is empty exactly when it has no lines; `SplitLinesRejoin`, `SplitLinesSplittable` and `SplitJoin` together fix the lines as the one separator-free list that rejoins to the output |
| `FailureScan.LineEndAtSeparator` | ci/bin/concourse_job_performance.py:84 | a line without separators, followed by a separator character, ends right before it |
| `FailureScan.SplitJoin` | ci/bin/concourse_job_performance.py:84 | lines without separators joined with any separators (a lone "\r" never followed by an empty line ended by "\n", and only a non-empty last line left unterminated) split back to exactly those lines |
| `FailureScan.SplitLinesRejoin` | ci/bin/concourse_job_performance.py:84 | every output is its lines joined with the separators splitting dropped, so no character is lost or added |
| `FailureScan.SplitLinesSplittable` | ci/bin/concourse_job_performance.py:84 | the lines splitting yields hold no separator, and with the dropped separators they meet the condition under which joining splits back |
| `FailureScan.TestName` | ci/bin/concourse_job_performance.py:175 | the test name is the class, a dot and the method |
| `FailureScan.RecordTestFailure` | ci/bin/concourse_job_performance.py:176-179 | the build is appended to the test's entry, which is created if missing; every other entry is kept |
| `FailureScan.CheckLineForFailure` | ci/bin/concourse_job_performance.py:167-181 | the result is true exactly when "BUILD FAILED" or "Test Failed!" occurs in the line; a line naming a failed test appends the build to that test's entry and keeps the others; any other line leaves the map as it was |
| `FailureScan.RecordLineEntry` | ci/bin/concourse_job_performance.py:88-96 | one line appends the build to the entry of the test it names and leaves every other entry, and every test, in place |
| `FailureScan.RecordLinesEntry` | ci/bin/concourse_job_performance.py:82-99 | over a whole output, each test's entry grows by one copy of the build per line naming that test, and no test disappears |
| `FailureScan.ScanLines` | ci/bin/concourse_job_performance.py:84-99 | over lines already split, the count is the number of lines holding a build-failure literal, and the map is updated line by line as the per-line check does |
| `FailureScan.AssessEventOutputForFailure` | ci/bin/concourse_job_performance.py:82-99 | the count is the number of output lines holding a build-failure literal, and the map is updated line by line as the per-line check does |

## Left out

- TCP recovery from peer locators (`recover(InetSocketAddress)`) is not modelled. Each peer's answer is an input (`Locator.PeerAnswer`). Only the rule that the first view reply wins, with the view file as the fallback, is kept.
- Java and Geode serialization is not modelled: the object streams, `DataSerializer`, and reading a view written by an older version through `VersionedObjectInput`. The file keeps its two int header fields, and the view payload is opaque (`ViewFiles.Payload`).
- `synchronized`, `volatile` and `notifyAll` are not modelled. The model is sequential, so each entry point is one atomic transition.
- Logging and `LocatorStats` (`endRequest`, `endResponse`) are not modelled, because neither affects state.
- Parsing the locator string into peer addresses (`GMSUtil.parseLocators`) is not modelled: the configured peers are given as a list (`LocatorData.Config.locators`).
- `Locator.Init`: the default file name built from the server port (`locator<port>view.dat`) is an input here.
- `setViewFile` and `getViewFile` are test hooks and are not modelled.
- The `view == null && services == null` check at lines 250-255 of `GMSLocator.java` is unreachable, because `services` was found non-null at line 231. It has no counterpart in the model.
- Election.ScanRegistrants: `mbr != coordinator` is a reference comparison in the code. It is modelled as value inequality, because identity of objects is not modelled.
- Locator.RefreshLocalAddress: the bound services are a snapshot (`LocatorData.Services`) that no transition updates, so the address it copies is the messenger id stored at bind time. The code reads the live messenger (`GMSLocator.java:205-206`). After a bind whose messenger had no id, the model copies that missing id again, while the code would pick up an id the messenger gained later.
- The member class and `NetView` are not part of this model. Their behaviour is the set of assumptions listed above.
- BuildSelection.SortDesc: Python's sort is stable, but the model does not state stability: equal keys may come out in either input order. The builds sorted here have distinct ids, for which the order is fully determined.
- BuildSelection.GetBuildsToExamine: `int()` on a build name is not modelled, because names are integers in this model. The logging calls of `list_and_sort_by_name` on the aborted, errored, pending and started lists are not modelled either, so no `ValueError` can arise from them.
- A build summary missing its `status`, `id` or `name` field is not modelled. Each such field access raises `KeyError` in the code. `name` is read by `SingleFailure.__str__` (lines 163-164), which the debug log at lines 97 and 180 formats eagerly, so in the code a build without a name raises `KeyError` inside the scan as soon as a line names a failed test.
- `TEST_FAILURE_REGEX` is a parameter, not a regular-expression engine.
- The HTTP and SSE code (`get_event_response`, `assess_event_response`, `get_builds_summary_sheet`), `main`, argparse, and `present_results` (float percentages and coloured printing) are not modelled.
- `PersistenceObserverHolder`, `ConfigPropertyConverter`, `CacheServerInfo` and the test-suite configuration classes hold no logic of this core.

=== FILE: build_selection.dfy ===
/** The build-selection helpers of the CI job-performance script: partitioning builds by
    status, choosing the most recent completed builds, and listing build names. */
module BuildSelection {
  import opened Wrappers
  import opened Seqs

  /** The fields of a build summary the helpers read; `name` is the build name already read as
      an integer. */
  datatype Build = Build(id: int, name: int, status: string)

  /** The Python exceptions these helpers can raise. */
  datatype PyError =
    | KeyError(key: string)
    | RuntimeError(fetched: nat, completed: nat, wanted: int)
    | IndexError

  /** The statuses `get_builds_to_examine` sorts builds into, in its order. */
  const Statuses: seq<string> := ["succeeded", "failed", "aborted", "errored", "pending", "started"]

  function StatusOf(b: Build): string { b.status }
  function IdOf(b: Build): int { b.id }
  function IntKey(n: int): int { n }

  /** The test "the inspector maps the item to `k`". */
  function KeyIs<T, K(==)>(inspector: T -> K, k: K): T -> bool {
    x => inspector(x) == k
  }

  /** The test "the inspector maps the item into `ks`". */
  function KeyIn<T, K(==)>(inspector: T -> K, ks: seq<K>): T -> bool {
    x => inspector(x) in ks
  }

  /** For each key, in order, the items with that key, in input order. */
  function SieveLists<T, K(==)>(items: seq<T>, inspector: T -> K, keys: seq<K>): (r: seq<seq<T>>)
    ensures |r| == |keys|
    ensures forall j :: 0 <= j < |keys| ==> r[j] == Filter(items, KeyIs(inspector, keys[j]))
    decreases |keys|
  {
    if keys == [] then []
    else [Filter(items, KeyIs(inspector, keys[0]))] + SieveLists(items, inspector, keys[1..])
  }

  /** The summed length of a list of lists. */
  function TotalLength<T>(lists: seq<seq<T>>): nat
    decreases |lists|
  {
    if lists == [] then 0 else |lists[0]| + TotalLength(lists[1..])
  }

  /** No key occurs twice. */
  predicate Distinct<K(==)>(keys: seq<K>) {
    forall i, j :: 0 <= i < j < |keys| ==> keys[i] != keys[j]
  }

  /** With distinct keys, the per-key lists together hold exactly the items whose key is among
      the keys. */
  lemma {:induction false} SieveListsTotal<T, K>(items: seq<T>, inspector: T -> K, keys: seq<K>)
    requires Distinct(keys)
    ensures TotalLength(SieveLists(items, inspector, keys)) == |Filter(items, KeyIn(inspector, keys))|
    decreases |keys|
  {
    if keys == [] {
      assert forall i :: 0 <= i < |items| ==> !KeyIn(inspector, keys)(items[i]);
      FilterNoneKept(items, KeyIn(inspector, keys));
    } else {
      var lists := SieveLists(items, inspector, keys);
      assert lists[1..] == SieveLists(items, inspector, keys[1..]);
      DistinctTail(keys);
      SieveListsTotal(items, inspector, keys[1..]);
      KeyInSplit(inspector, keys);
      FilterDisjointCount(items, KeyIs(inspector, keys[0]), KeyIn(inspector, keys[1..]), KeyIn(inspector, keys));
    }
  }

  /** Dropping the first of distinct keys leaves distinct keys, none equal to the dropped one. */
  lemma DistinctTail<K>(keys: seq<K>)
    requires Distinct(keys) && keys != []
    ensures Distinct(keys[1..]) && keys[0] !in keys[1..]
  {
    forall i | 0 <= i < |keys[1..]| ensures keys[1..][i] != keys[0] {
      assert keys[1..][i] == keys[i + 1];
    }
  }

  /** A key is among `keys` exactly when it is the first one or among the rest; with distinct
      keys never both. */
  lemma KeyInSplit<T, K>(inspector: T -> K, keys: seq<K>)
    requires keys != [] && keys[0] !in keys[1..]
    ensures forall x :: KeyIn(inspector, keys)(x) == (KeyIs(inspector, keys[0])(x) || KeyIn(inspector, keys[1..])(x))
    ensures forall x :: !(KeyIs(inspector, keys[0])(x) && KeyIn(inspector, keys[1..])(x))
  {
    assert keys == [keys[0]] + keys[1..];
  }

  /** A predicate that holds of no element keeps nothing. */
  lemma {:induction false} FilterNoneKept<T>(s: seq<T>, p: T -> bool)
    requires forall i :: 0 <= i < |s| ==> !p(s[i])
    ensures Filter(s, p) == []
    decreases |s|
  {
    if s != [] {
      FilterNoneKept(s[1..], p);
    }
  }

  /** Appends an item to the list of every key position holding its key. */
  function AppendByKey<T, K(==)>(lists: seq<seq<T>>, keys: seq<K>, x: T, inspector: T -> K): (r: seq<seq<T>>)
    requires |lists| == |keys|
    ensures |r| == |keys|
  {
    seq(|keys|, j requires 0 <= j < |keys| => if keys[j] == inspector(x) then lists[j] + [x] else lists[j])
  }

  /** One step of the sieve: appending the next item to its key's list keeps every list equal
      to the filtered prefix. */
  lemma SieveStep<T, K>(items: seq<T>, i: nat, inspector: T -> K, keys: seq<K>, lists: seq<seq<T>>)
    requires i < |items| && |lists| == |keys|
    requires forall j :: 0 <= j < |keys| ==> lists[j] == Filter(items[..i], KeyIs(inspector, keys[j]))
    ensures forall j :: 0 <= j < |keys| ==>
              AppendByKey(lists, keys, items[i], inspector)[j] == Filter(items[..i + 1], KeyIs(inspector, keys[j]))
  {
    assert items[..i + 1] == items[..i] + [items[i]];
    forall j | 0 <= j < |keys| {
      FilterSnoc(items[..i], items[i], KeyIs(inspector, keys[j]));
    }
  }

  /** `sieve(iterable, inspector, *keys)`: one list per key, in key order, each holding the
      items with that key in input order; the first item whose key is not among the keys raises
      `KeyError`. The dictionary of lists is kept as one list per key position; a repeated key
      shares its list, as the dictionary does. */
  method Sieve<T, K(==)>(items: seq<T>, inspector: T -> K, keys: seq<K>) returns (r: Result<seq<seq<T>>, K>)
    ensures r.Success? <==> forall i :: 0 <= i < |items| ==> inspector(items[i]) in keys
    ensures r.Failure? ==>
              exists i :: 0 <= i < |items| && r.error == inspector(items[i]) && r.error !in keys
                          && forall j :: 0 <= j < i ==> inspector(items[j]) in keys
    ensures r.Success? ==> r.value == SieveLists(items, inspector, keys)
  {
    var lists: seq<seq<T>> := seq(|keys|, _ => []);
    var i := 0;
    while i < |items|
      invariant 0 <= i <= |items| && |lists| == |keys|
      invariant forall j :: 0 <= j < |keys| ==> lists[j] == Filter(items[..i], KeyIs(inspector, keys[j]))
      invariant forall j :: 0 <= j < i ==> inspector(items[j]) in keys
    {
      if inspector(items[i]) !in keys {
        return Failure(inspector(items[i]));
      }
      SieveStep(items, i, inspector, keys, lists);
      lists := AppendByKey(lists, keys, items[i], inspector);
      i := i + 1;
    }
    assert items[..i] == items;
    r := Success(lists);
  }

  /** When the keys are distinct and cover every item's key, the sieve's lists together hold
      every item exactly once. */
  lemma SieveListsPartition<T, K>(items: seq<T>, inspector: T -> K, keys: seq<K>)
    requires Distinct(keys)
    requires forall i :: 0 <= i < |items| ==> inspector(items[i]) in keys
    ensures TotalLength(SieveLists(items, inspector, keys)) == |items|
  {
    SieveListsTotal(items, inspector, keys);
    FilterKeepsAll(items, KeyIn(inspector, keys));
  }

  /** Every key is at least as large as every later one. */
  predicate SortedDesc<T>(s: seq<T>, key: T -> int) {
    forall i, j :: 0 <= i < j < |s| ==> key(s[i]) >= key(s[j])
  }

  /** Inserts `x` before the first element whose key is not larger, keeping equal keys in
      their original order. */
  function InsertDesc<T>(x: T, s: seq<T>, key: T -> int): (r: seq<T>)
    requires SortedDesc(s, key)
    ensures SortedDesc(r, key)
    ensures multiset(r) == multiset(s) + multiset{x}
    ensures |r| == |s| + 1
    ensures r[0] == x || (s != [] && r[0] == s[0])
    decreases |s|
  {
    if s == [] || key(s[0]) <= key(x) then [x] + s
    else
      assert s == [s[0]] + s[1..];
      [s[0]] + InsertDesc(x, s[1..], key)
  }

  /** A sort by descending key, as `sort(key=..., reverse=True)`. */
  function SortDesc<T>(s: seq<T>, key: T -> int): (r: seq<T>)
    ensures SortedDesc(r, key)
    ensures multiset(r) == multiset(s)
    ensures |r| == |s|
    decreases |s|
  {
    if s == [] then []
    else
      assert s == [s[0]] + s[1..];
      InsertDesc(s[0], SortDesc(s[1..], key), key)
  }

  /** The leading `n` elements of a sequence sorted by descending key have keys at least as
      large as every element left after them. */
  lemma TopPrefix<T>(s: seq<T>, key: T -> int, n: nat)
    requires SortedDesc(s, key) && n <= |s|
    ensures forall x, y :: x in s[..n] && y in s[n..] ==> key(x) >= key(y)
    ensures multiset(s[n..]) == multiset(s) - multiset(s[..n])
  {
    forall x, y | x in s[..n] && y in s[n..] ensures key(x) >= key(y) {
      var i :| 0 <= i < n && s[..n][i] == x;
      var j :| 0 <= j < |s| - n && s[n..][j] == y;
      assert s[i] == x && s[n + j] == y;
    }
    assert s == s[..n] + s[n..];
  }

  /** A prefix of a sequence sorted by descending key is itself sorted, and draws its elements
      from the sequence. */
  lemma PrefixOfSorted<T>(s: seq<T>, key: T -> int, n: nat)
    requires SortedDesc(s, key) && n <= |s|
    ensures SortedDesc(s[..n], key)
    ensures multiset(s[..n]) <= multiset(s)
  {
    assert s == s[..n] + s[n..];
  }

  /** Python's `s[:n]`: a negative `n` counts from the end. */
  function SliceTo<T>(s: seq<T>, n: int): (r: seq<T>)
    ensures |r| <= |s| && r == s[..|r|]
    ensures n >= 0 ==> |r| == if n < |s| then n else |s|
    ensures n < 0 ==> |r| == if |s| + n > 0 then |s| + n else 0
  {
    if n >= 0 then (if n < |s| then s[..n] else s)
    else (if |s| + n > 0 then s[..|s| + n] else [])
  }

  /** The completed builds in the order `get_builds_to_examine` collects them: succeeded ones,
      then failed ones. */
  function Completed(builds: seq<Build>): seq<Build> {
    Filter(builds, KeyIs(StatusOf, "succeeded")) + Filter(builds, KeyIs(StatusOf, "failed"))
  }

  /** Every build `Completed` collects is a succeeded or a failed one. */
  lemma CompletedAreFinished(builds: seq<Build>)
    ensures forall b :: b in multiset(Completed(builds)) ==> b.status == "succeeded" || b.status == "failed"
  {
    var succeeded := Filter(builds, KeyIs(StatusOf, "succeeded"));
    var failed := Filter(builds, KeyIs(StatusOf, "failed"));
    forall b | b in multiset(Completed(builds)) ensures b.status == "succeeded" || b.status == "failed" {
      assert b in succeeded + failed;
      if b in succeeded {
        var i :| 0 <= i < |succeeded| && succeeded[i] == b;
        assert KeyIs(StatusOf, "succeeded")(succeeded[i]);
        assert StatusOf(b) == "succeeded";
      } else {
        var i :| 0 <= i < |failed| && failed[i] == b;
        assert KeyIs(StatusOf, "failed")(failed[i]);
        assert StatusOf(b) == "failed";
      }
    }
  }

  /** Lines 194-207 of `get_builds_to_examine` on the completed builds: newest id first, cut to
      `buildCount` unless it is 0, a shortfall raising `RuntimeError` and an empty selection
      raising `IndexError`. `fetched` is the number of builds in the summary. */
  function SelectBuilds(completed: seq<Build>, fetched: nat, buildCount: int): (r: Result<seq<Build>, PyError>)
    ensures r.Success? ==> r.value != [] && SortedDesc(r.value, IdOf)
    ensures r.Success? ==> |r.value| <= |completed| && r.value == SortDesc(completed, IdOf)[..|r.value|]
    ensures r.Success? ==> multiset(r.value) <= multiset(completed)
    ensures buildCount > 0 ==>
              (|completed| < buildCount <==> r == Failure(RuntimeError(fetched, |completed|, buildCount)))
    ensures buildCount >= 0 ==> (r == Failure(IndexError) <==> completed == [] && buildCount == 0)
    ensures r.Failure? ==> r.error.RuntimeError? || r.error.IndexError?
    // a negative count drops that many of the oldest builds, and fails when none are left
    ensures buildCount < 0 ==> (r.Success? <==> |completed| + buildCount > 0)
    ensures buildCount < 0 && r.Success? ==> |r.value| == |completed| + buildCount
  {
    var sorted := SortDesc(completed, IdOf);
    var toAnalyze := if buildCount != 0 then SliceTo(sorted, buildCount) else sorted;
    if buildCount != 0 && |sorted| < buildCount then Failure(RuntimeError(fetched, |sorted|, buildCount))
    else if toAnalyze == [] then Failure(IndexError)
    else
      assert toAnalyze == sorted[..|toAnalyze|];
      PrefixOfSorted(sorted, IdOf, |toAnalyze|);
      Success(toAnalyze)
  }

  /** With a positive count, the selection is exactly that many builds, none older than any
      completed build left out; with a count of 0 it is every completed build. */
  lemma SelectBuildsTakesNewest(completed: seq<Build>, fetched: nat, buildCount: int)
    ensures var r := SelectBuilds(completed, fetched, buildCount);
            r.Success? && buildCount > 0 ==>
              && |r.value| == buildCount
              && forall x, y :: x in r.value && y in multiset(completed) - multiset(r.value) ==> x.id >= y.id
    ensures var r := SelectBuilds(completed, fetched, buildCount);
            r.Success? && buildCount == 0 ==> multiset(r.value) == multiset(completed)
  {
    var r := SelectBuilds(completed, fetched, buildCount);
    if r.Success? {
      var sorted := SortDesc(completed, IdOf);
      TopPrefix(sorted, IdOf, |r.value|);
      assert sorted[..|r.value|] == r.value;
      forall x, y | x in r.value && y in multiset(completed) - multiset(r.value) ensures x.id >= y.id {
        assert y in sorted[|r.value|..];
      }
      if buildCount == 0 {
        assert r.value == sorted[..|sorted|];
      }
    }
  }

  /** Every build has one of the statuses the script knows. */
  predicate KnownStatuses(builds: seq<Build>) {
    forall i :: 0 <= i < |builds| ==> StatusOf(builds[i]) in Statuses
  }

  /** `get_builds_to_examine(builds, build_count)`: an unknown status raises `KeyError`;
      otherwise the succeeded and failed builds are selected as `SelectBuilds` describes. */
  method GetBuildsToExamine(builds: seq<Build>, buildCount: int) returns (r: Result<seq<Build>, PyError>)
    ensures !KnownStatuses(builds) <==> r.Failure? && r.error.KeyError?
    ensures r.Failure? && r.error.KeyError? ==> r.error.key !in Statuses
    ensures r.Failure? && r.error.KeyError? ==>
              exists i :: 0 <= i < |builds| && builds[i].status == r.error.key
                          && forall j :: 0 <= j < i ==> builds[j].status in Statuses
    ensures KnownStatuses(builds) ==> r == SelectBuilds(Completed(builds), |builds|, buildCount)
    ensures r.Success? ==> forall i :: 0 <= i < |r.value| ==> r.value[i].status == "succeeded" || r.value[i].status == "failed"
  {
    var sieved := Sieve(builds, StatusOf, Statuses);
    assert sieved.Success? <==> KnownStatuses(builds);
    if sieved.Failure? {
      return Failure(KeyError(sieved.error));
    }
    SievedStatuses(builds, sieved.value);
    var succeeded, failed := sieved.value[0], sieved.value[1];
    r := SelectBuilds(succeeded + failed, |builds|, buildCount);
    SelectedAreFinished(builds, buildCount);
  }

  /** Sieving by the known statuses puts the completed builds in the first two lists. */
  lemma SievedStatuses(builds: seq<Build>, lists: seq<seq<Build>>)
    requires lists == SieveLists(builds, StatusOf, Statuses)
    ensures |lists| == |Statuses| && lists[0] + lists[1] == Completed(builds)
  {
  }

  /** Only succeeded and failed builds are ever selected. */
  lemma SelectedAreFinished(builds: seq<Build>, buildCount: int)
    ensures var r := SelectBuilds(Completed(builds), |builds|, buildCount);
            r.Success? ==> forall i :: 0 <= i < |r.value| ==> r.value[i].status == "succeeded" || r.value[i].status == "failed"
  {
    var r := SelectBuilds(Completed(builds), |builds|, buildCount);
    if r.Success? {
      CompletedAreFinished(builds);
      forall i | 0 <= i < |r.value| ensures r.value[i].status == "succeeded" || r.value[i].status == "failed" {
        assert r.value[i] in multiset(r.value);
      }
    }
  }

  /** `list_and_sort_by_name(builds)`: the build names, largest first. */
  function ListAndSortByName(builds: seq<Build>): (r: seq<int>)
    ensures SortedDesc(r, IntKey)
    ensures multiset(r) == multiset(seq(|builds|, i requires 0 <= i < |builds| => builds[i].name))
  {
    SortDesc(seq(|builds|, i requires 0 <= i < |builds| => builds[i].name), IntKey)
  }
}

=== FILE: election.dfy ===
/** How a `FindCoordinatorRequest` is answered: from a view when there is one, from the
    registrants otherwise, and overridden when this locator's own member is coordinator. */
module Election {
  import opened Wrappers
  import opened Seqs
  import opened Views

  /** A registrant that may replace the running candidate: not rejected by the requester, and
      either preferred for coordinator or running without network-partition detection. */
  predicate Eligible<M(==)>(traits: MemberTraits<M>, rejections: set<M>, m: M) {
    m !in rejections && (traits.preferredForCoordinator(m) || !traits.partitionDetectionEnabled(m))
  }

  /** What the registrant scan promises: the result is the starting candidate or an eligible
      registrant strictly below it, and no eligible registrant sorts strictly below the result. */
  ghost predicate ScanOutcome<M>(traits: MemberTraits<M>, start: Option<M>, registrants: set<M>,
                                 rejections: set<M>, c: Option<M>) {
    && (c == start ||
        (&& c.Some? && c.value in registrants && Eligible(traits, rejections, c.value)
         && (start.Some? ==> traits.less(c.value, start.value))))
    && (forall m :: m in registrants && Eligible(traits, rejections, m) ==>
          c.Some? && !traits.less(m, c.value))
  }

  /** The running-minimum scan over the registrants, starting from the join-leave service's
      member id. The set is visited in no particular order. */
  method ScanRegistrants<M(==,!new)>(traits: MemberTraits<M>, start: Option<M>, registrants: set<M>,
                                      rejections: set<M>) returns (c: Option<M>)
    requires StrictOrder(traits.less)
    ensures ScanOutcome(traits, start, registrants, rejections, c)
  {
    c := start;
    var rest := registrants;
    while rest != {}
      invariant rest <= registrants
      invariant c == start ||
                (&& c.Some? && c.value in registrants && Eligible(traits, rejections, c.value)
                 && (start.Some? ==> traits.less(c.value, start.value)))
      invariant forall m :: m in registrants - rest && Eligible(traits, rejections, m) ==>
                  c.Some? && !traits.less(m, c.value)
      decreases rest
    {
      var m :| m in rest;
      if c.None? || (m != c.value && traits.less(m, c.value)) {
        if Eligible(traits, rejections, m) {
          c := Some(m);
        }
      }
      rest := rest - {m};
    }
  }

  /** Under a strict total order the scan's promise pins down a single result, so the order in
      which the registrants are visited cannot change the answer. */
  lemma ScanOutcomeUnique<M(!new)>(traits: MemberTraits<M>, start: Option<M>, registrants: set<M>,
                             rejections: set<M>, c1: Option<M>, c2: Option<M>)
    requires StrictOrder(traits.less) && Connected(traits.less)
    requires ScanOutcome(traits, start, registrants, rejections, c1)
    requires ScanOutcome(traits, start, registrants, rejections, c2)
    ensures c1 == c2
  {
    if c1 != start && c2 != start {
      assert !traits.less(c1.value, c2.value) && !traits.less(c2.value, c1.value);
    }
  }

  /** An eligible registrant that sorts below the starting candidate and below every other
      eligible registrant is the one the scan settles on. */
  lemma LowestEligibleIsChosen<M(!new)>(traits: MemberTraits<M>, start: Option<M>, registrants: set<M>,
                                  rejections: set<M>, y: M, c: Option<M>)
    requires StrictOrder(traits.less) && Connected(traits.less)
    requires y in registrants && Eligible(traits, rejections, y)
    requires start.Some? ==> traits.less(y, start.value)
    requires forall m :: m in registrants && Eligible(traits, rejections, m) && m != y ==> traits.less(y, m)
    requires ScanOutcome(traits, start, registrants, rejections, c)
    ensures c == Some(y)
  {
    assert ScanOutcome(traits, start, registrants, rejections, Some(y));
    ScanOutcomeUnique(traits, start, registrants, rejections, c, Some(y));
  }

  /** The response view with the first entry that shares the requester's identity (an old
      incarnation whose id was reused) removed from a copy. */
  function DropReusedIdentity<M(==)>(traits: MemberTraits<M>, v: View<M>, requester: M): (r: View<M>)
    ensures r.viewId == v.viewId && r.keys == v.keys
    ensures forall i :: 0 <= i < |r.members| ==> r.members[i] in v.members
    ensures forall i :: 0 <= i < |v.members| && !traits.sameIdentity(requester, v.members[i]) ==>
              v.members[i] in r.members
    ensures (forall i :: 0 <= i < |v.members| ==> !traits.sameIdentity(requester, v.members[i])) ==> r == v
    ensures (exists i :: 0 <= i < |v.members| && traits.sameIdentity(requester, v.members[i])) ==>
              exists i :: 0 <= i < |v.members| && traits.sameIdentity(requester, v.members[i])
                          && v.members[i] !in r.members
    // only the first entry of that identity is dropped, as the scan stops there
    ensures (exists i :: 0 <= i < |v.members| && traits.sameIdentity(requester, v.members[i])) ==>
              exists i :: 0 <= i < |v.members| && traits.sameIdentity(requester, v.members[i])
                          && (forall j :: 0 <= j < i ==> !traits.sameIdentity(requester, v.members[j]))
                          && r == Remove(v, v.members[i])
  {
    match FirstIndex(v.members, id => traits.sameIdentity(requester, id))
    case None => v
    case Some(i) => Remove(v, v.members[i])
  }

  /** The coordinator the view names for a requester that last saw view `lastViewId`: a view
      newer than that ignores the requester's rejections; otherwise the rejected members are
      passed over. */
  function ViewCandidate<M(==)>(traits: MemberTraits<M>, v: View<M>, rejections: set<M>, lastViewId: int)
    : (r: Option<M>)
    ensures r.Some? ==> r.value in v.members
    ensures v.viewId <= lastViewId && r.Some? ==> r.value !in rejections
    ensures v.viewId > lastViewId ==> (r.None? <==> v.members == [])
    // the view's own choice: a newer view with no rejections, a seen one with the requester's
    ensures v.viewId > lastViewId ==> r == Coordinator(traits, v, {})
    ensures v.viewId <= lastViewId ==> r == Coordinator(traits, v, rejections)
  {
    if v.viewId > lastViewId then Coordinator(traits, v, {}) else Coordinator(traits, v, rejections)
  }

  /** The view a response carries before the self-coordinator override: the response view with
      a reused identity dropped. */
  function CarriedView<M(==)>(traits: MemberTraits<M>, responseView: Option<View<M>>, requester: M): Option<View<M>> {
    if responseView.Some? then Some(DropReusedIdentity(traits, responseView.value, requester)) else None
  }

  /** The coordinator the carried view proposes, if there is a view and it names one. */
  function ViewChoice<M(==)>(traits: MemberTraits<M>, carried: Option<View<M>>, rejections: set<M>, lastViewId: int)
    : Option<M>
  {
    if carried.Some? then ViewCandidate(traits, carried.value, rejections, lastViewId) else None
  }

  /** A newer view answers the same whatever the requester rejected. */
  lemma NewerViewIgnoresRejections<M>(traits: MemberTraits<M>, v: View<M>, r1: set<M>, r2: set<M>, lastViewId: int)
    requires v.viewId > lastViewId
    ensures ViewCandidate(traits, v, r1, lastViewId) == ViewCandidate(traits, v, r2, lastViewId)
    ensures ViewCandidate(traits, v, r1, lastViewId) == Coordinator(traits, v, {})
  {
  }

  /** A view that the requester has already seen never proposes a coordinator it rejected:
      with the view's own coordinator rejected, another member is proposed or none. */
  lemma SeenViewRespectsRejections<M>(traits: MemberTraits<M>, v: View<M>, rejections: set<M>, lastViewId: int)
    requires v.viewId <= lastViewId
    requires Coordinator(traits, v, {}).Some? && Coordinator(traits, v, {}).value in rejections
    ensures ViewCandidate(traits, v, rejections, lastViewId) != Coordinator(traits, v, {})
  {
  }

  /** The coordinator, the view and the from-view flag a response will carry. */
  datatype Choice<M(==)> = Choice(coordinator: Option<M>, view: Option<View<M>>, fromView: bool)

  /** When this locator's member has been told it is coordinator, it names itself; a view
      whose own coordinator is someone else is then left out of the response. */
  function ApplySelfCoordinator<M(==)>(traits: MemberTraits<M>, isCoordinator: bool, localAddress: Option<M>,
                                      ch: Choice<M>): (r: Choice<M>)
    ensures !isCoordinator ==> r == ch
    ensures isCoordinator ==> r.coordinator == localAddress
    ensures r.view.Some? ==> r.view == ch.view && r.fromView == ch.fromView
    ensures r.view.None? && ch.view.Some? ==> !r.fromView
    ensures isCoordinator && localAddress.Some? && r.view.Some? ==>
              Coordinator(traits, r.view.value, {}) == localAddress
    // a view that agrees on the coordinator, or any view while the local address is unknown, is kept
    ensures isCoordinator && ch.view.Some? &&
            (localAddress.None? || Coordinator(traits, ch.view.value, {}) == localAddress) ==>
              r.view == ch.view && r.fromView == ch.fromView
  {
    if !isCoordinator then ch
    else if ch.view.Some? && localAddress.Some? && Coordinator(traits, ch.view.value, {}) != localAddress then
      Choice(localAddress, None, false)
    else
      ch.(coordinator := localAddress)
  }

  /** The coordinator's public key: the response view's entry if it has one, the messenger's
      key store otherwise. */
  function CoordinatorKey<M(==)>(view: Option<View<M>>, coordinator: Option<M>, messengerKeys: map<M, Key>)
    : (r: Option<Key>)
    ensures r.Some? ==> coordinator.Some?
    ensures view.Some? && ViewKey(view.value, coordinator).Some? ==> r == ViewKey(view.value, coordinator)
    ensures (view.None? || ViewKey(view.value, coordinator).None?) ==>
              (r.Some? <==> coordinator.Some? && coordinator.value in messengerKeys)
    ensures (view.None? || ViewKey(view.value, coordinator).None?) && r.Some? ==>
              r.value == messengerKeys[coordinator.value]
  {
    var fromView := if view.Some? then ViewKey(view.value, coordinator) else None;
    if fromView.Some? then fromView
    else if coordinator.Some? && coordinator.value in messengerKeys then Some(messengerKeys[coordinator.value])
    else None
  }
}

=== FILE: failure_scan.dfy ===
/** The failure scan of the CI job-performance script: spotting build-failure lines in a build's
    event output and collecting, per failed test, the builds it failed in. */
module FailureScan {
  import opened Wrappers
  import opened Seqs

  /** `needle` occurs in `line` at some position, as a regular-expression search for a literal
      finds it. */
  function Contains(line: string, needle: string): (r: bool)
    decreases |line|
  {
    if |needle| <= |line| && line[..|needle|] == needle then true
    else if line == [] then false
    else Contains(line[1..], needle)
  }

  /** `needle` occurs in `line` starting at position `i`. */
  predicate OccursAt(line: string, needle: string, i: nat) {
    i + |needle| <= |line| && line[i..i + |needle|] == needle
  }

  /** `Contains` is exactly "the needle occurs at some position of the line". */
  lemma {:induction false} ContainsIffOccurs(line: string, needle: string)
    ensures Contains(line, needle) <==> exists i: nat :: OccursAt(line, needle, i)
    decreases |line|
  {
    if |needle| <= |line| && line[..|needle|] == needle {
      assert OccursAt(line, needle, 0);
    } else if line == [] {
    } else {
      ContainsIffOccurs(line[1..], needle);
      if Contains(line[1..], needle) {
        var i: nat :| OccursAt(line[1..], needle, i);
        assert line[i + 1..i + 1 + |needle|] == line[1..][i..i + |needle|];
        assert OccursAt(line, needle, i + 1);
      } else {
        forall i: nat | OccursAt(line, needle, i) ensures false {
          if i > 0 {
            assert line[i..i + |needle|] == line[1..][i - 1..i - 1 + |needle|];
            assert OccursAt(line[1..], needle, i - 1);
          }
        }
      }
    }
  }

  /** `BUILD_FAIL_REGEX`: the alternation of the two literals "BUILD FAILED" and "Test Failed!". */
  predicate IsBuildFailure(line: string) {
    Contains(line, "BUILD FAILED") || Contains(line, "Test Failed!")
  }

  /** The line separators Python's `str.splitlines` breaks on. */
  const LineBreaks: set<char> :=
    {'\n', '\r', '\U{0B}', '\U{0C}', '\U{1C}', '\U{1D}', '\U{1E}', '\U{85}', '\U{2028}', '\U{2029}'}

  /** `c` is one of `LineBreaks`. */
  predicate IsLineBreak(c: char) {
    c in LineBreaks
  }

  /** No character of the text is a line separator. */
  predicate NoLineBreak(s: string) {
    forall i :: 0 <= i < |s| ==> !IsLineBreak(s[i])
  }

  /** The position of the first line separator, or the length when there is none. */
  function LineEnd(s: string): (n: nat)
    ensures n <= |s|
    ensures NoLineBreak(s[..n])
    ensures n < |s| ==> IsLineBreak(s[n])
    decreases |s|
  {
    if s == [] || IsLineBreak(s[0]) then 0
    else
      var n := 1 + LineEnd(s[1..]);
      assert s[..n] == [s[0]] + s[1..][..n - 1];
      n
  }

  /** How many characters the separator at position `n` takes: two for "\r\n", one otherwise. */
  function SeparatorLength(s: string, n: nat): (k: nat)
    requires n < |s|
    ensures 1 <= k <= 2 && n + k <= |s|
  {
    if s[n] == '\r' && n + 1 < |s| && s[n + 1] == '\n' then 2 else 1
  }

  /** Python's `str.splitlines()`: the lines without their separators, "\r\n" counting as one
      separator, and no empty line after a final separator. */
  function SplitLines(s: string): (lines: seq<string>)
    ensures s == [] <==> lines == []
    decreases |s|
  {
    if s == [] then []
    else
      var n := LineEnd(s);
      if n == |s| then [s]
      else [s[..n]] + SplitLines(s[n + SeparatorLength(s, n)..])
  }

  /** The separators `SplitLines` drops, in order: one per terminated line. */
  function Separators(s: string): seq<string>
    decreases |s|
  {
    if s == [] then []
    else
      var n := LineEnd(s);
      if n == |s| then []
      else [s[n..n + SeparatorLength(s, n)]] + Separators(s[n + SeparatorLength(s, n)..])
  }

  /** The text is the single character `c`. */
  predicate IsChar(sep: string, c: char) {
    |sep| == 1 && sep[0] == c
  }

  /** A line separator: one separator character, or "\r\n". */
  predicate IsSeparator(sep: string) {
    (|sep| == 1 && IsLineBreak(sep[0])) || (|sep| == 2 && sep[0] == '\r' && sep[1] == '\n')
  }

  /** Lines joined, each followed by its separator while separators last. */
  function JoinWith(lines: seq<string>, seps: seq<string>): string
    decreases |lines|
  {
    if lines == [] then []
    else if seps == [] then lines[0] + JoinWith(lines[1..], [])
    else lines[0] + seps[0] + JoinWith(lines[1..], seps[1..])
  }

  /** Lines and separators that splitting reads back: no line holds a separator, every line is
      terminated except possibly a non-empty last one, and no lone "\r" ends a line that is
      followed by an empty line ended by "\n" (the two would read as one "\r\n"). */
  predicate Splittable(lines: seq<string>, seps: seq<string>) {
    && (|seps| == |lines| || (|seps| + 1 == |lines| && lines[|lines| - 1] != []))
    && (forall i :: 0 <= i < |lines| ==> NoLineBreak(lines[i]))
    && (forall k :: 0 <= k < |seps| ==> IsSeparator(seps[k]))
    && (forall k :: 0 <= k < |seps| - 1 && IsChar(seps[k], '\r') && lines[k + 1] == [] ==> !IsChar(seps[k + 1], '\n'))
  }

  /** A line without separators, followed by a separator character, ends right there. */
  lemma {:induction false} LineEndAtSeparator(line: string, rest: string)
    requires NoLineBreak(line)
    requires rest != [] && IsLineBreak(rest[0])
    ensures LineEnd(line + rest) == |line|
  {
    var t := line + rest;
    var n := LineEnd(t);
    assert t[|line|] == rest[0];
  }

  /** Splitting joined lines gives the lines back, whatever the separators. */
  lemma {:induction false} SplitJoin(lines: seq<string>, seps: seq<string>)
    requires Splittable(lines, seps)
    ensures SplitLines(JoinWith(lines, seps)) == lines
    decreases |lines|
  {
    if lines != [] {
      if seps == [] {
        SplitLastLine(lines, seps);
      } else {
        SplitJoinStep(lines, seps);
        SplittableTail(lines, seps);
        SplitJoin(lines[1..], seps[1..]);
        assert lines == [lines[0]] + lines[1..];
      }
    }
  }

  /** A single unterminated line splits back to itself. */
  lemma {:induction false} SplitLastLine(lines: seq<string>, seps: seq<string>)
    requires Splittable(lines, seps) && lines != [] && seps == []
    ensures SplitLines(JoinWith(lines, seps)) == lines
  {
    assert lines[1..] == [];
    assert JoinWith(lines, seps) == lines[0] + JoinWith([], []) == lines[0];
    LineEndNoBreak(lines[0]);
    assert lines == [lines[0]];
  }

  /** A text without separators is one line. */
  lemma {:induction false} LineEndNoBreak(s: string)
    requires NoLineBreak(s)
    ensures LineEnd(s) == |s|
  {
  }

  /** Splitting peels the first terminated line and its separator off joined text. */
  lemma {:induction false} SplitJoinStep(lines: seq<string>, seps: seq<string>)
    requires Splittable(lines, seps) && seps != []
    ensures SplitLines(JoinWith(lines, seps)) == [lines[0]] + SplitLines(JoinWith(lines[1..], seps[1..]))
  {
    var t := JoinWith(lines, seps);
    var rest := JoinWith(lines[1..], seps[1..]);
    var n := |lines[0]|;
    assert t == lines[0] + (seps[0] + rest);
    LineEndAtSeparator(lines[0], seps[0] + rest);
    assert t[..n] == lines[0];
    SplittableTail(lines, seps);
    if IsChar(seps[0], '\r') && lines[1..] != [] {
      RestStart(lines[1..], seps[1..]);
      assert t[n + 1] == rest[0];
    }
    assert t[n + SeparatorLength(t, n)..] == rest;
  }

  /** Dropping the first terminated line keeps lines and separators splittable; and after a
      lone "\r" the next line, if empty, is not ended by "\n". */
  lemma {:induction false} SplittableTail(lines: seq<string>, seps: seq<string>)
    requires Splittable(lines, seps) && seps != []
    ensures Splittable(lines[1..], seps[1..])
    ensures IsChar(seps[0], '\r') && lines[1..] != [] ==>
              NoLineBreak(lines[1]) &&
              (lines[1] == [] ==> seps[1..] != [] && IsSeparator(seps[1]) && !IsChar(seps[1], '\n'))
  {
    forall k | 0 <= k < |seps[1..]| - 1 && IsChar(seps[1..][k], '\r') && lines[1..][k + 1] == []
      ensures !IsChar(seps[1..][k + 1], '\n')
    {
      assert IsChar(seps[k + 1], '\r') && lines[k + 2] == [];
    }
  }

  /** Joined text never starts with "\n" when its first line has no separator in it and, if
      that line is empty, its separator is not "\n". */
  lemma {:induction false} RestStart(lines: seq<string>, seps: seq<string>)
    requires lines != [] && NoLineBreak(lines[0])
    requires lines[0] == [] ==> seps != [] && IsSeparator(seps[0]) && !IsChar(seps[0], '\n')
    ensures JoinWith(lines, seps) != [] && JoinWith(lines, seps)[0] != '\n'
  {
    JoinWithUnfold(lines, seps);
    assert '\n' in LineBreaks;
    if lines[0] != [] {
      assert JoinWith(lines, seps)[0] == lines[0][0];
    } else {
      assert JoinWith(lines, seps)[0] == seps[0][0];
    }
  }

  /** One step of `JoinWith`. */
  lemma {:induction false} JoinWithUnfold(lines: seq<string>, seps: seq<string>)
    requires lines != []
    ensures seps == [] ==> JoinWith(lines, seps) == lines[0] + JoinWith(lines[1..], [])
    ensures seps != [] ==> JoinWith(lines, seps) == lines[0] + seps[0] + JoinWith(lines[1..], seps[1..])
  {
  }

  /** Every text is its lines joined with the separators splitting dropped. */
  lemma {:induction false} SplitLinesRejoin(s: string)
    ensures JoinWith(SplitLines(s), Separators(s)) == s
    decreases |s|
  {
    if s != [] {
      var n := LineEnd(s);
      if n == |s| {
        RejoinOneLine(s);
      } else {
        SplitLinesRejoin(s[n + SeparatorLength(s, n)..]);
        RejoinStepText(s);
      }
    }
  }

  /** The lines and separators splitting produces are ones it reads back. Together with
      `SplitLinesRejoin` and `SplitJoin` this pins down `SplitLines(s)`: it is the one
      splittable list of lines that rejoins to `s`. */
  lemma {:induction false} SplitLinesSplittable(s: string)
    ensures Splittable(SplitLines(s), Separators(s))
    decreases |s|
  {
    if s != [] {
      var n := LineEnd(s);
      if n == |s| {
        RejoinOneLine(s);
      } else {
        SplitLinesSplittable(s[n + SeparatorLength(s, n)..]);
        RejoinStepSplittable(s);
      }
    }
  }

  /** A text without separators is its own single, unterminated line. */
  lemma {:induction false} RejoinOneLine(s: string)
    requires s != [] && LineEnd(s) == |s|
    ensures Splittable(SplitLines(s), Separators(s))
    ensures JoinWith(SplitLines(s), Separators(s)) == s
  {
    SplitLinesUnfold(s);
    assert JoinWith([s], []) == s + JoinWith([], []);
  }

  /** Rejoining after the first separator, then putting the first line and separator back,
      gives the whole text. */
  lemma {:induction false} RejoinStepText(s: string)
    requires s != [] && LineEnd(s) < |s|
    requires var tail := s[LineEnd(s) + SeparatorLength(s, LineEnd(s))..];
             JoinWith(SplitLines(tail), Separators(tail)) == tail
    ensures JoinWith(SplitLines(s), Separators(s)) == s
  {
    var n := LineEnd(s);
    var k := SeparatorLength(s, n);
    SplitLinesUnfold(s);
    SeparatorsUnfold(s);
    SeparatorAt(s, n);
    var lines, seps := SplitLines(s), Separators(s);
    assert JoinWith(lines, seps) == lines[0] + seps[0] + JoinWith(lines[1..], seps[1..]);
    assert lines[1..] == SplitLines(s[n + k..]) && seps[1..] == Separators(s[n + k..]);
  }

  /** The lines and separators after the first separator stay splittable with the first line
      and separator put back. */
  lemma {:induction false} RejoinStepSplittable(s: string)
    requires s != [] && LineEnd(s) < |s|
    requires var tail := s[LineEnd(s) + SeparatorLength(s, LineEnd(s))..];
             Splittable(SplitLines(tail), Separators(tail))
    ensures Splittable(SplitLines(s), Separators(s))
  {
    var n := LineEnd(s);
    var k := SeparatorLength(s, n);
    var tail := s[n + k..];
    var sep := s[n..n + k];
    SplitLinesUnfold(s);
    SeparatorsUnfold(s);
    SeparatorAt(s, n);
    LoneReturnNotJoined(s);
    SplittableCons(s[..n], sep, SplitLines(tail), Separators(tail));
  }

  /** A lone "\r" separator is never followed by an empty line ended by "\n": the two would
      have been one "\r\n". */
  lemma {:induction false} LoneReturnNotJoined(s: string)
    requires s != [] && LineEnd(s) < |s|
    ensures var n := LineEnd(s);
            var k := SeparatorLength(s, n);
            var tail := s[n + k..];
            IsChar(s[n..n + k], '\r') && SplitLines(tail) != [] && SplitLines(tail)[0] == [] ==>
              Separators(tail) == [] || !IsChar(Separators(tail)[0], '\n')
  {
    var n := LineEnd(s);
    var k := SeparatorLength(s, n);
    var tail := s[n + k..];
    if IsChar(s[n..n + k], '\r') && SplitLines(tail) != [] && SplitLines(tail)[0] == [] {
      SeparatorAt(s, n);
      assert k == 1 && tail == s[n + 1..];
      SplitLinesUnfold(tail);
      SeparatorsUnfold(tail);
      assert LineEnd(tail) == 0;
      assert Separators(tail)[0][0] == tail[0] != '\n';
    }
  }

  /** The separator at a line break: a separator, splitting the text around it, and a lone
      "\r" only where no "\n" follows. */
  lemma {:induction false} SeparatorAt(s: string, n: nat)
    requires n < |s| && IsLineBreak(s[n])
    ensures IsSeparator(s[n..n + SeparatorLength(s, n)])
    ensures s == s[..n] + s[n..n + SeparatorLength(s, n)] + s[n + SeparatorLength(s, n)..]
    ensures IsChar(s[n..n + SeparatorLength(s, n)], '\r') && n + 1 < |s| ==> s[n + 1..][0] != '\n'
  {
    var k := SeparatorLength(s, n);
    if k == 1 {
      assert s[n..n + k] == [s[n]];
    }
  }

  /** One step of `SplitLines`: a text without separators is one line; otherwise the first
      line is followed by the lines after its separator. */
  lemma {:induction false} SplitLinesUnfold(s: string)
    requires s != []
    ensures LineEnd(s) == |s| ==> SplitLines(s) == [s] && Separators(s) == []
    ensures LineEnd(s) < |s| ==>
              SplitLines(s) == [s[..LineEnd(s)]] + SplitLines(s[LineEnd(s) + SeparatorLength(s, LineEnd(s))..])
  {
  }

  /** One step of `Separators`: the first separator, then those after it. */
  lemma {:induction false} SeparatorsUnfold(s: string)
    requires s != [] && LineEnd(s) < |s|
    ensures Separators(s) == [s[LineEnd(s)..LineEnd(s) + SeparatorLength(s, LineEnd(s))]]
                             + Separators(s[LineEnd(s) + SeparatorLength(s, LineEnd(s))..])
  {
  }

  /** Putting one more terminated line in front keeps lines and separators splittable, and
      joins to the line, its separator and the rest. */
  lemma {:induction false} SplittableCons(line: string, sep: string, lines: seq<string>, seps: seq<string>)
    requires NoLineBreak(line) && IsSeparator(sep) && Splittable(lines, seps)
    requires IsChar(sep, '\r') && lines != [] && lines[0] == [] ==> seps == [] || !IsChar(seps[0], '\n')
    ensures Splittable([line] + lines, [sep] + seps)
    ensures JoinWith([line] + lines, [sep] + seps) == line + sep + JoinWith(lines, seps)
  {
    var ls, ss := [line] + lines, [sep] + seps;
    assert ls[1..] == lines && ss[1..] == seps;
    forall k | 0 <= k < |ss| - 1 && IsChar(ss[k], '\r') && ls[k + 1] == [] ensures !IsChar(ss[k + 1], '\n') {
      if k > 0 {
        assert ss[k] == seps[k - 1] && ls[k + 1] == lines[k] && ss[k + 1] == seps[k];
      }
    }
  }

  /** `".".join((class_name, method))`. */
  function TestName(className: string, methodName: string): (name: string)
    ensures |name| == |className| + 1 + |methodName|
    ensures name[..|className|] == className && name[|className|] == '.'
    ensures name[|className| + 1..] == methodName
  {
    className + "." + methodName
  }

  /** The builds recorded under a test name; an absent name reads as no builds. */
  function Entry<B>(failures: map<string, seq<B>>, name: string): seq<B> {
    if name in failures then failures[name] else []
  }

  /** The failure-map update of lines 93-96 and 176-179: a missing or empty entry becomes the one
      build, an existing entry gets the build appended. */
  function RecordTestFailure<B>(failures: map<string, seq<B>>, name: string, build: B): (r: map<string, seq<B>>)
    ensures r.Keys == failures.Keys + {name}
    ensures r[name] == Entry(failures, name) + [build]
    ensures forall other :: other in failures && other != name ==> r[other] == failures[other]
  {
    if name !in failures || failures[name] == [] then failures[name := [build]]
    else failures[name := failures[name] + [build]]
  }

  /** What `TEST_FAILURE_REGEX` captures from a line: the class and method of a failed test,
      or nothing. The regular expression itself is a parameter of the model. */
  type TestMatcher = string -> Option<(string, string)>

  /** The failure map after one line: unchanged unless the line names a failed test. */
  function RecordLine<B>(testMatch: TestMatcher, build: B, failures: map<string, seq<B>>, line: string): map<string, seq<B>> {
    match testMatch(line)
    case None => failures
    case Some((className, methodName)) => RecordTestFailure(failures, TestName(className, methodName), build)
  }

  /** `check_line_for_failure(build, failures, line)`: reports whether the line holds one of the
      build-failure literals, and records a failed test named by the line. */
  function CheckLineForFailure<B>(testMatch: TestMatcher, build: B, failures: map<string, seq<B>>, line: string)
    : (r: (bool, map<string, seq<B>>))
    ensures r.0 <==> (exists i: nat :: OccursAt(line, "BUILD FAILED", i))
                     || (exists i: nat :: OccursAt(line, "Test Failed!", i))
    ensures testMatch(line).None? ==> r.1 == failures
    ensures testMatch(line).Some? ==>
              var name := TestName(testMatch(line).value.0, testMatch(line).value.1);
              && r.1.Keys == failures.Keys + {name}
              && r.1[name] == Entry(failures, name) + [build]
              && forall other :: other in failures && other != name ==> r.1[other] == failures[other]
  {
    ContainsIffOccurs(line, "BUILD FAILED");
    ContainsIffOccurs(line, "Test Failed!");
    (IsBuildFailure(line), RecordLine(testMatch, build, failures, line))
  }

  /** The failure map after every line, in order. */
  function RecordLines<B>(testMatch: TestMatcher, build: B, failures: map<string, seq<B>>, lines: seq<string>)
    : map<string, seq<B>>
    decreases |lines|
  {
    if lines == [] then failures
    else RecordLines(testMatch, build, RecordLine(testMatch, build, failures, lines[0]), lines[1..])
  }

  /** The lines naming a given failed test. */
  function NamesTest(testMatch: TestMatcher, name: string): string -> bool {
    line => testMatch(line).Some? && TestName(testMatch(line).value.0, testMatch(line).value.1) == name
  }

  /** `b` repeated `n` times. */
  function Repeat<B>(b: B, n: nat): (r: seq<B>)
    ensures |r| == n && forall i :: 0 <= i < n ==> r[i] == b
  {
    seq(n, _ => b)
  }

  /** Scanning lines grows each test's entry by one copy of the build per line naming that test,
      and never drops a test. */
  lemma {:induction false} RecordLinesEntry<B>(testMatch: TestMatcher, build: B, failures: map<string, seq<B>>,
                                               lines: seq<string>, name: string)
    ensures var r := RecordLines(testMatch, build, failures, lines);
            Entry(r, name) == Entry(failures, name) + Repeat(build, |Filter(lines, NamesTest(testMatch, name))|)
    ensures failures.Keys <= RecordLines(testMatch, build, failures, lines).Keys
    decreases |lines|
  {
    if lines != [] {
      var next := RecordLine(testMatch, build, failures, lines[0]);
      RecordLineEntry(testMatch, build, failures, lines[0], name);
      RecordLinesEntry(testMatch, build, next, lines[1..], name);
      var n := |Filter(lines[1..], NamesTest(testMatch, name))|;
      if NamesTest(testMatch, name)(lines[0]) {
        assert Repeat(build, 1 + n) == [build] + Repeat(build, n);
      }
    }
  }

  /** One line grows the entry of the test it names by the build, leaves every other entry as
      it was, and keeps every test. */
  lemma RecordLineEntry<B>(testMatch: TestMatcher, build: B, failures: map<string, seq<B>>, line: string, name: string)
    ensures Entry(RecordLine(testMatch, build, failures, line), name)
            == Entry(failures, name) + if NamesTest(testMatch, name)(line) then [build] else []
    ensures failures.Keys <= RecordLine(testMatch, build, failures, line).Keys
  {
  }

  /** One line of the scan: the failure count grows by one for a build-failure line, and the
      rest of the scan continues from the map after this line. */
  lemma ScanStep<B>(testMatch: TestMatcher, build: B, recorded: map<string, seq<B>>, lines: seq<string>, i: nat)
    requires i < |lines|
    ensures |Filter(lines[..i + 1], IsBuildFailure)|
            == |Filter(lines[..i], IsBuildFailure)| + if IsBuildFailure(lines[i]) then 1 else 0
    ensures RecordLines(testMatch, build, RecordLine(testMatch, build, recorded, lines[i]), lines[i + 1..])
            == RecordLines(testMatch, build, recorded, lines[i..])
  {
    FilterSnoc(lines[..i], lines[i], IsBuildFailure);
    assert lines[..i + 1] == lines[..i] + [lines[i]];
    assert lines[i..][1..] == lines[i + 1..];
  }

  /** The scan of `assess_event_output_for_failure` over lines already split: the number of
      build-failure lines, with every failed test named by a line recorded. */
  method ScanLines<B>(testMatch: TestMatcher, build: B, lines: seq<string>, failures: map<string, seq<B>>)
    returns (count: nat, recorded: map<string, seq<B>>)
    ensures count == |Filter(lines, IsBuildFailure)|
    ensures count <= |lines|
    ensures recorded == RecordLines(testMatch, build, failures, lines)
  {
    count := 0;
    recorded := failures;
    var i := 0;
    while i < |lines|
      invariant 0 <= i <= |lines|
      invariant count == |Filter(lines[..i], IsBuildFailure)|
      invariant RecordLines(testMatch, build, recorded, lines[i..]) == RecordLines(testMatch, build, failures, lines)
    {
      var result := CheckLineForFailure(testMatch, build, recorded, lines[i]);
      ScanStep(testMatch, build, recorded, lines, i);
      recorded := result.1;
      count := count + if result.0 then 1 else 0;
      i := i + 1;
    }
    assert lines[..i] == lines;
  }

  /** `assess_event_output_for_failure(build, event_output, failures)`: the output is split into
      lines and scanned. */
  method AssessEventOutputForFailure<B>(testMatch: TestMatcher, build: B, eventOutput: string,
                                        failures: map<string, seq<B>>)
    returns (count: nat, recorded: map<string, seq<B>>)
    ensures count == |Filter(SplitLines(eventOutput), IsBuildFailure)|
    ensures count <= |SplitLines(eventOutput)|
    ensures recorded == RecordLines(testMatch, build, failures, SplitLines(eventOutput))
  {
    count, recorded := ScanLines(testMatch, build, SplitLines(eventOutput), failures);
  }
}

=== FILE: locator.dfy ===
/** The peer locator's entry points: binding to membership services, installing views,
    answering requests, recovering at start-up, and listing members. */
module Locator {
  import opened Wrappers
  import opened Seqs
  import opened Views
  import opened ViewFiles
  import opened LocatorData
  import opened Persistence
  import opened Election

  /** `setMembershipManager`: binds to `svc` unless already bound to services that are still
      running. Binding records the messenger's member id as the local address; a missing id
      throws after the services have been recorded. When the join-leave service has no view
      yet, a view left from an earlier binding becomes the recovered hint with id -100, the
      local address is dropped from the hint and registered. */
  function SetMembershipManager<M(==)>(s: LocatorState<M>, svc: Services<M>): (r: Step<LocatorState<M>, bool>)
    ensures s.services.Some? && !s.services.value.stopped ==> r == Returned(s, false)
    ensures (s.services.None? || s.services.value.stopped) && svc.messengerId.None? ==>
              r == Threw(s.(services := Some(svc), localAddress := None), NullPointer)
    ensures (s.services.None? || s.services.value.stopped) && svc.messengerId.Some? ==>
              && r.Returned? && r.value
              && r.state.services == Some(svc)
              && r.state.localAddress == svc.messengerId
    ensures r.state.config == s.config && r.state.isCoordinator == s.isCoordinator
    ensures r.state.viewFile == s.viewFile && r.state.publicKeys == s.publicKeys
    ensures r.Returned? && r.value && svc.joinLeaveView.Some? ==>
              && r.state.view == svc.joinLeaveView
              && r.state.recoveredView.None?
              && r.state.registrants == s.registrants
    ensures r.Returned? && r.value && svc.joinLeaveView.None? ==>
              && r.state.view.None?
              && r.state.registrants == s.registrants + {svc.messengerId.value}
              && (r.state.recoveredView.Some? <==> s.view.Some? || s.recoveredView.Some?)
              && (r.state.recoveredView.Some? ==> svc.messengerId.value !in r.state.recoveredView.value.members)
    ensures r.Returned? && r.value && svc.joinLeaveView.None? && s.view.Some? ==>
              && r.state.recoveredView.value.viewId == -100
              && r.state.recoveredView.value.keys == s.view.value.keys
              && (forall i :: 0 <= i < |s.view.value.members| && s.view.value.members[i] != svc.messengerId.value ==>
                    s.view.value.members[i] in r.state.recoveredView.value.members)
    ensures r.Returned? && r.value && svc.joinLeaveView.None? && s.view.Some? ==>
              r.state.recoveredView == Some(Remove(s.view.value.(viewId := -100), svc.messengerId.value))
    ensures r.Returned? && r.value && svc.joinLeaveView.None? && s.view.None? && s.recoveredView.Some? ==>
              r.state.recoveredView == Some(Remove(s.recoveredView.value, svc.messengerId.value))
  {
    if s.services.Some? && !s.services.value.stopped then Returned(s, false)
    else match svc.messengerId
      case None => Threw(s.(services := Some(svc), localAddress := None), NullPointer)
      case Some(local) =>
        var bound := s.(services := Some(svc), localAddress := Some(local));
        if svc.joinLeaveView.Some? then
          Returned(bound.(view := svc.joinLeaveView, recoveredView := None), true)
        else
          // an auto-reconnect keeps its old view only as a hint at the coordinator
          var hint := if s.view.Some? then Some(s.view.value.(viewId := -100)) else s.recoveredView;
          var hint' := if hint.Some? then Some(Remove(hint.value, local)) else None;
          Returned(bound.(view := None, recoveredView := hint', registrants := s.registrants + {local}), true)
  }

  /** A second binding while the first services are still running changes nothing. */
  lemma BindIsOneShot<M>(s: LocatorState<M>, svc: Services<M>, other: Services<M>)
    requires SetMembershipManager(s, svc).Returned? && SetMembershipManager(s, svc).value
    requires !svc.stopped
    ensures var bound := SetMembershipManager(s, svc).state;
            SetMembershipManager(bound, other) == Returned(bound, false)
  {
  }

  /** Binding never turns a recovered hint into one with a valid view id. */
  lemma BindKeepsHintNonAuthoritative<M>(s: LocatorState<M>, svc: Services<M>)
    requires HintIsNonAuthoritative(s)
    ensures HintIsNonAuthoritative(SetMembershipManager(s, svc).state)
  {
  }

  /** `installView`: the new view supersedes the registrants and the recovered hint, and is
      saved to the view file. */
  function InstallView<M(==)>(h: Host<M>, v: View<M>, outcome: WriteOutcome<M>): (r: Host<M>)
    ensures r.locator.registrants == {} && r.locator.view == Some(v) && r.locator.recoveredView.None?
    ensures r.locator.services == h.locator.services && r.locator.localAddress == h.locator.localAddress
    ensures r.locator.isCoordinator == h.locator.isCoordinator && r.locator.publicKeys == h.locator.publicKeys
    ensures r.locator.config == h.locator.config
    ensures h.locator.viewFile.None? ==> r.locator.viewFile.None? && r.disk == h.disk
    ensures h.locator.viewFile.Some? && outcome.WriteCompletes? ==>
              && r.locator.viewFile == h.locator.viewFile
              && h.locator.viewFile.value in r.disk
              && ParseImage(r.disk[h.locator.viewFile.value]) == Stamped(h.locator.config.currentOrdinal, Encoded(v))
    ensures h.locator.viewFile.Some? && outcome.WriteFails? ==> r.locator.viewFile.None?
    ensures HintIsNonAuthoritative(r.locator)
  {
    var s := h.locator.(registrants := {}, view := Some(v), recoveredView := None);
    SaveView(Host(s, h.disk), v, outcome)
  }

  /** `setIsCoordinator`: records the notification and nothing else. */
  function SetIsCoordinator<M(==)>(s: LocatorState<M>, isCoordinator: bool): (r: LocatorState<M>)
    ensures r.isCoordinator == isCoordinator
    ensures r.(isCoordinator := s.isCoordinator) == s
  {
    s.(isCoordinator := isCoordinator)
  }

  /** `getPublicKey`: the key an unbound locator stored for the member, if any. */
  function GetPublicKey<M(==)>(s: LocatorState<M>, m: M): (r: Option<Key>)
    ensures r.Some? <==> Some(m) in s.publicKeys
    ensures r.Some? ==> r.value == s.publicKeys[Some(m)]
  {
    if Some(m) in s.publicKeys then Some(s.publicKeys[Some(m)]) else None
  }

  /** `shutDown`: forgets every stored key and nothing else. */
  function ShutDown<M(==,!new)>(s: LocatorState<M>): (r: LocatorState<M>)
    ensures forall m :: GetPublicKey(r, m).None?
    ensures r.(publicKeys := s.publicKeys) == s
  {
    s.(publicKeys := map[])
  }

  /** The answer to a `GetViewRequest`: the current view, or no response without one. */
  function AnswerGetView<M(==)>(s: LocatorState<M>): (r: Response<M>)
    ensures r.GetViewResponse? <==> s.view.Some?
    ensures r.GetViewResponse? ==> r.view == s.view.value
    ensures !r.GetViewResponse? ==> r == NoResponse
  {
    if s.view.Some? then GetViewResponse(s.view.value) else NoResponse
  }

  /** A recovered hint never answers a `GetViewRequest`: only the current view does. */
  lemma GetViewIgnoresRecoveredView<M>(s: LocatorState<M>, hint: Option<View<M>>)
    ensures AnswerGetView(s.(recoveredView := hint)) == AnswerGetView(s)
    ensures s.view.None? ==> AnswerGetView(s.(recoveredView := hint)) == NoResponse
  {
  }

  /** The explanation sent to a member whose Diffie-Hellman algorithm differs from ours. */
  function DhMismatchMessage(theirs: string, ours: string): string {
    "Rejecting findCoordinatorRequest, as member not configured same udp security("
      + theirs + " )as locator (" + ours + ")"
  }

  /** The messenger's `setPublicKey`: a supplied key is recorded for the member. */
  function MessengerSetKey<M(==)>(keys: map<M, Key>, key: Option<Key>, m: M): map<M, Key> {
    if key.Some? then keys[m := key.value] else keys
  }

  /** A `FindCoordinatorRequest` that reaches coordinator selection: same algorithm, bound
      services, and a member id. */
  predicate Serving<M(==)>(s: LocatorState<M>, req: FindCoordinatorRequest<M>) {
    req.dhAlgo == s.config.securityUDPDHAlgo && s.services.Some? && req.memberId.Some?
  }

  /** The locator after serving a request from `requester`: the requester is registered,
      dropped from the recovered hint, and its key handed to the messenger. */
  function AfterServing<M(==)>(s: LocatorState<M>, requester: M, key: Option<Key>): (r: LocatorState<M>)
    requires s.services.Some?
    ensures r.(services := s.services, registrants := s.registrants, recoveredView := s.recoveredView) == s
    ensures r.registrants == s.registrants + {requester}
    ensures r.services.Some?
    ensures r.services.value.(messengerKeys := s.services.value.messengerKeys) == s.services.value
    ensures key.Some? ==> r.services.value.messengerKeys == s.services.value.messengerKeys[requester := key.value]
    ensures key.None? ==> r.services.value.messengerKeys == s.services.value.messengerKeys
    ensures s.recoveredView.None? ==> r.recoveredView.None?
    ensures s.recoveredView.Some? ==> r.recoveredView == Some(Remove(s.recoveredView.value, requester))
  {
    var svc := s.services.value;
    var hint := if s.recoveredView.Some? then Some(Remove(s.recoveredView.value, requester)) else None;
    s.(services := Some(svc.(messengerKeys := MessengerSetKey(svc.messengerKeys, key, requester))),
       registrants := s.registrants + {requester},
       recoveredView := hint)
  }

  /** The view a served request is answered from: the current view, or else the recovered hint
      after the requester's removal (without a current view the two are the same object). */
  function ResponseViewFor<M(==)>(s: LocatorState<M>, requester: M): (r: Option<View<M>>)
    ensures s.view.Some? ==> r == s.view
    ensures s.view.None? ==> (r.Some? <==> s.recoveredView.Some?)
    ensures s.view.None? && r.Some? ==>
              && r.value.viewId == s.recoveredView.value.viewId
              && forall i :: 0 <= i < |r.value.members| ==>
                   r.value.members[i] in s.recoveredView.value.members && r.value.members[i] != requester
    // without a current view the response view is the hint as served: the requester removed
    ensures s.view.None? && s.recoveredView.Some? ==>
              r == Some(Remove(s.recoveredView.value, requester))
  {
    if s.view.Some? then s.view
    else if s.recoveredView.Some? then Some(Remove(s.recoveredView.value, requester))
    else None
  }

  /** Coordinator selection for a served request: from the response view, or else from the
      registrants; then the self-coordinator override. */
  method SelectCoordinator<M(==,!new)>(traits: MemberTraits<M>, responseView: Option<View<M>>, requester: M,
                                        rejections: set<M>, lastViewId: int, joinLeaveId: Option<M>,
                                        registrants: set<M>, isCoordinator: bool, localAddress: Option<M>)
    returns (ch: Choice<M>)
    requires StrictOrder(traits.less)
    ensures ch.fromView <==> ch.view.Some?
    ensures ch.view.Some? ==>
              && responseView.Some?
              && ch.view.value.viewId == responseView.value.viewId
              && forall i :: 0 <= i < |ch.view.value.members| ==> ch.view.value.members[i] in responseView.value.members
    ensures isCoordinator ==> ch.coordinator == localAddress
    ensures isCoordinator && localAddress.Some? && ch.view.Some? ==>
              Coordinator(traits, ch.view.value, {}) == localAddress
    ensures !isCoordinator && ch.view.Some? && ch.view.value.viewId > lastViewId
              && Coordinator(traits, ch.view.value, {}).Some? ==>
              ch.coordinator == Coordinator(traits, ch.view.value, {})
    ensures !isCoordinator && ch.coordinator.Some? && ch.coordinator != joinLeaveId
              && (ch.view.None? || ch.view.value.viewId <= lastViewId) ==>
              ch.coordinator.value !in rejections
    // the view carried, and the coordinator it proposes or else the registrant scan
    ensures !isCoordinator ==> ch.view == CarriedView(traits, responseView, requester)
    ensures !isCoordinator && ViewChoice(traits, CarriedView(traits, responseView, requester), rejections, lastViewId).Some? ==>
              ch.coordinator == ViewChoice(traits, CarriedView(traits, responseView, requester), rejections, lastViewId)
    ensures !isCoordinator && ViewChoice(traits, CarriedView(traits, responseView, requester), rejections, lastViewId).None? ==>
              ScanOutcome(traits, joinLeaveId, registrants, rejections, ch.coordinator)
    // a coordinator keeps the carried view exactly when the view agrees or its own address is unknown
    ensures isCoordinator && responseView.Some? ==>
              (ch.view.Some? <==> (localAddress.None? ||
                 Coordinator(traits, CarriedView(traits, responseView, requester).value, {}) == localAddress))
    ensures isCoordinator && ch.view.Some? ==> ch.view == CarriedView(traits, responseView, requester)
  {
    var view := CarriedView(traits, responseView, requester);
    var coordinator := ViewChoice(traits, view, rejections, lastViewId);
    if coordinator.None? {
      coordinator := ScanRegistrants(traits, joinLeaveId, registrants, rejections);
    }
    ch := ApplySelfCoordinator(traits, isCoordinator, localAddress, Choice(coordinator, view, view.Some?));
  }

  /** The answer to a served request: a locator that is not coordinator carries the response
      view and names the coordinator that view proposes, or else the registrant scan's choice;
      either way the key is the named coordinator's. */
  ghost predicate AnsweredAsSelected<M>(traits: MemberTraits<M>, s: LocatorState<M>, req: FindCoordinatorRequest<M>,
                                            s': LocatorState<M>, resp: Response<M>)
  {
    && Serving(s, req) && s'.services.Some? && resp.FindCoordinatorResponse?
    && resp.coordinatorPublicKey == CoordinatorKey(resp.responseView, resp.coordinator, s'.services.value.messengerKeys)
    && (!s.isCoordinator ==>
          var carried := CarriedView(traits, ResponseViewFor(s, req.memberId.value), req.memberId.value);
          var fromView := ViewChoice(traits, carried, req.rejectedCoordinators, req.lastViewId);
          && resp.responseView == carried
          && (fromView.Some? ==> resp.coordinator == fromView)
          && (fromView.None? ==>
                ScanOutcome(traits, s.services.value.joinLeaveId, s'.registrants, req.rejectedCoordinators,
                            resp.coordinator)))
    && (s.isCoordinator ==>
          var carried := CarriedView(traits, ResponseViewFor(s, req.memberId.value), req.memberId.value);
          && (resp.responseView.Some? ==> resp.responseView == carried)
          && (carried.Some? ==>
                (resp.responseView.Some? <==>
                   (s'.localAddress.None? || Coordinator(traits, carried.value, {}) == s'.localAddress))))
  }

  /** The served part of `processFindCoordinatorRequest`: the requester is registered and the
      response is built from the response view or the registrants. */
  method ServeFindCoordinator<M(==,!new)>(traits: MemberTraits<M>, s: LocatorState<M>, req: FindCoordinatorRequest<M>)
    returns (s': LocatorState<M>, resp: Response<M>)
    requires StrictOrder(traits.less)
    requires Serving(s, req)
    ensures s' == AfterServing(s, req.memberId.value, req.publicKey)
    ensures resp.FindCoordinatorResponse?
              && resp.senderId == s.localAddress
              && resp.registrants == s'.registrants
              && resp.networkPartitionDetectionEnabled == s.config.networkPartitionDetectionEnabled
              && resp.usePreferredCoordinators == s.config.usePreferredCoordinators
              && (resp.fromView <==> resp.responseView.Some?)
              && (resp.coordinatorPublicKey.Some? ==> resp.coordinator.Some?)
    ensures resp.responseView.Some? && s.view.Some? ==>
              && resp.responseView.value.viewId == s.view.value.viewId
              && forall i :: 0 <= i < |resp.responseView.value.members| ==>
                   resp.responseView.value.members[i] in s.view.value.members
    ensures resp.responseView.Some? && s.view.None? ==>
              && s.recoveredView.Some?
              && resp.responseView.value.viewId == s.recoveredView.value.viewId
              && forall i :: 0 <= i < |resp.responseView.value.members| ==>
                   && resp.responseView.value.members[i] in s.recoveredView.value.members
                   && resp.responseView.value.members[i] != req.memberId.value
    // the coordinator of a served request
    ensures s.isCoordinator ==>
              && resp.coordinator == s.localAddress
              && (s.localAddress.Some? && resp.responseView.Some? ==>
                    Coordinator(traits, resp.responseView.value, {}) == s.localAddress)
    ensures !s.isCoordinator && resp.responseView.Some?
              && resp.responseView.value.viewId > req.lastViewId
              && Coordinator(traits, resp.responseView.value, {}).Some? ==>
              resp.coordinator == Coordinator(traits, resp.responseView.value, {})
    ensures !s.isCoordinator && resp.coordinator.Some?
              && resp.coordinator != s.services.value.joinLeaveId
              && (resp.responseView.None? || resp.responseView.value.viewId <= req.lastViewId) ==>
              resp.coordinator.value !in req.rejectedCoordinators
    ensures !s.isCoordinator ==>
              var carried := CarriedView(traits, ResponseViewFor(s, req.memberId.value), req.memberId.value);
              var fromView := ViewChoice(traits, carried, req.rejectedCoordinators, req.lastViewId);
              && resp.responseView == carried
              && (fromView.Some? ==> resp.coordinator == fromView)
              && (fromView.None? ==>
                    ScanOutcome(traits, s.services.value.joinLeaveId, s'.registrants, req.rejectedCoordinators,
                                resp.coordinator))
    ensures s.isCoordinator ==>
              var carried := CarriedView(traits, ResponseViewFor(s, req.memberId.value), req.memberId.value);
              && (resp.responseView.Some? ==> resp.responseView == carried)
              && (carried.Some? ==>
                    (resp.responseView.Some? <==>
                       (s.localAddress.None? || Coordinator(traits, carried.value, {}) == s.localAddress)))
    // the coordinator's key: from the response view, else from the messenger after this request's key
    ensures resp.coordinatorPublicKey == CoordinatorKey(resp.responseView, resp.coordinator, s'.services.value.messengerKeys)
  {
    var requester := req.memberId.value;
    var responseView := ResponseViewFor(s, requester);
    s' := AfterServing(s, requester, req.publicKey);
    var ch := SelectCoordinator(traits, responseView, requester, req.rejectedCoordinators, req.lastViewId,
                                s.services.value.joinLeaveId, s'.registrants, s.isCoordinator, s.localAddress);
    var key := CoordinatorKey(ch.view, ch.coordinator, s'.services.value.messengerKeys);
    resp := FindCoordinatorResponse(ch.coordinator, s.localAddress, ch.fromView, ch.view, s'.registrants,
                                    s.config.networkPartitionDetectionEnabled, s.config.usePreferredCoordinators, key);
  }

  /** `processFindCoordinatorRequest`. */
  method ProcessFindCoordinatorRequest<M(==,!new)>(traits: MemberTraits<M>, s: LocatorState<M>,
                                                   req: FindCoordinatorRequest<M>)
    returns (s': LocatorState<M>, resp: Response<M>)
    requires StrictOrder(traits.less)
    // what no request changes
    ensures s'.config == s.config && s'.localAddress == s.localAddress && s'.view == s.view
    ensures s'.isCoordinator == s.isCoordinator && s'.viewFile == s.viewFile
    ensures HintIsNonAuthoritative(s) ==> HintIsNonAuthoritative(s')
    ensures resp.FindCoordinatorResponse? ==> Serving(s, req)
    // guards
    ensures req.dhAlgo != s.config.securityUDPDHAlgo ==>
              s' == s && resp == RejectionResponse(DhMismatchMessage(req.dhAlgo, s.config.securityUDPDHAlgo))
    ensures req.dhAlgo == s.config.securityUDPDHAlgo && s.services.None? ==>
              && resp == NoResponse
              && s'.(publicKeys := s.publicKeys) == s
              && (req.publicKey.None? ==> s'.publicKeys == s.publicKeys)
              && (req.publicKey.Some? ==> s'.publicKeys == s.publicKeys[req.memberId := req.publicKey.value])
    ensures req.dhAlgo == s.config.securityUDPDHAlgo && s.services.Some? && req.memberId.None? ==>
              s' == s && resp == NoResponse
    // a served request
    ensures Serving(s, req) ==> s' == AfterServing(s, req.memberId.value, req.publicKey)
    ensures Serving(s, req) ==>
              && resp.FindCoordinatorResponse?
              && resp.senderId == s.localAddress
              && resp.registrants == s'.registrants
              && resp.networkPartitionDetectionEnabled == s.config.networkPartitionDetectionEnabled
              && resp.usePreferredCoordinators == s.config.usePreferredCoordinators
              && (resp.fromView <==> resp.responseView.Some?)
              && (resp.coordinatorPublicKey.Some? ==> resp.coordinator.Some?)
    ensures Serving(s, req) && resp.responseView.Some? && s.view.Some? ==>
              && resp.responseView.value.viewId == s.view.value.viewId
              && forall i :: 0 <= i < |resp.responseView.value.members| ==>
                   resp.responseView.value.members[i] in s.view.value.members
    ensures Serving(s, req) && resp.responseView.Some? && s.view.None? ==>
              && s.recoveredView.Some?
              && resp.responseView.value.viewId == s.recoveredView.value.viewId
              && forall i :: 0 <= i < |resp.responseView.value.members| ==>
                   && resp.responseView.value.members[i] in s.recoveredView.value.members
                   && resp.responseView.value.members[i] != req.memberId.value
    // the coordinator of a served request
    ensures Serving(s, req) && s.isCoordinator ==>
              && resp.coordinator == s.localAddress
              && (s.localAddress.Some? && resp.responseView.Some? ==>
                    Coordinator(traits, resp.responseView.value, {}) == s.localAddress)
    ensures Serving(s, req) && !s.isCoordinator && resp.responseView.Some?
              && resp.responseView.value.viewId > req.lastViewId
              && Coordinator(traits, resp.responseView.value, {}).Some? ==>
              resp.coordinator == Coordinator(traits, resp.responseView.value, {})
    ensures Serving(s, req) && !s.isCoordinator && resp.coordinator.Some?
              && resp.coordinator != s.services.value.joinLeaveId
              && (resp.responseView.None? || resp.responseView.value.viewId <= req.lastViewId) ==>
              resp.coordinator.value !in req.rejectedCoordinators
    ensures Serving(s, req) && !s.isCoordinator ==>
              var carried := CarriedView(traits, ResponseViewFor(s, req.memberId.value), req.memberId.value);
              var fromView := ViewChoice(traits, carried, req.rejectedCoordinators, req.lastViewId);
              && resp.responseView == carried
              && (fromView.Some? ==> resp.coordinator == fromView)
              && (fromView.None? ==>
                    ScanOutcome(traits, s.services.value.joinLeaveId, s'.registrants, req.rejectedCoordinators,
                                resp.coordinator))
    ensures Serving(s, req) && s.isCoordinator ==>
              var carried := CarriedView(traits, ResponseViewFor(s, req.memberId.value), req.memberId.value);
              && (resp.responseView.Some? ==> resp.responseView == carried)
              && (carried.Some? ==>
                    (resp.responseView.Some? <==>
                       (s.localAddress.None? || Coordinator(traits, carried.value, {}) == s.localAddress)))
    // the coordinator's key: from the response view, else from the messenger after this request's key
    ensures Serving(s, req) ==>
              resp.coordinatorPublicKey == CoordinatorKey(resp.responseView, resp.coordinator, s'.services.value.messengerKeys)
  {
    if req.dhAlgo != s.config.securityUDPDHAlgo {
      return s, RejectionResponse(DhMismatchMessage(req.dhAlgo, s.config.securityUDPDHAlgo));
    }
    if s.services.None? {
      // services still initializing: only keep the caller's key for later
      s' := if req.publicKey.Some? then s.(publicKeys := s.publicKeys[req.memberId := req.publicKey.value]) else s;
      return s', NoResponse;
    }
    if req.memberId.None? {
      return s, NoResponse;
    }
    s', resp := ServeFindCoordinator(traits, s, req);
  }

  /** Before dispatching, a locator whose local address is still unknown takes it from the
      bound services' messenger. */
  function RefreshLocalAddress<M(==)>(s: LocatorState<M>): (r: LocatorState<M>)
    ensures r.(localAddress := s.localAddress) == s
    ensures s.localAddress.Some? || s.services.None? ==> r == s
    ensures s.localAddress.None? && s.services.Some? ==> r.localAddress == s.services.value.messengerId
  {
    if s.localAddress.None? && s.services.Some? then s.(localAddress := s.services.value.messengerId) else s
  }

  /** A `FindCoordinatorRequest` as `processRequest` handles it: the local address is refreshed,
      then `processFindCoordinatorRequest` answers. */
  method HandleFindCoordinator<M(==,!new)>(traits: MemberTraits<M>, s: LocatorState<M>, find: FindCoordinatorRequest<M>)
    returns (s': LocatorState<M>, resp: Response<M>)
    requires StrictOrder(traits.less)
    ensures !resp.GetViewResponse?
    ensures s.localAddress.Some? ==> s'.localAddress == s.localAddress
    ensures s.localAddress.None? && s.services.Some? ==> s'.localAddress == s.services.value.messengerId
    ensures s'.view == s.view && s'.isCoordinator == s.isCoordinator && s'.viewFile == s.viewFile
    ensures HintIsNonAuthoritative(s) ==> HintIsNonAuthoritative(s')
    ensures s.isCoordinator && resp.FindCoordinatorResponse? ==> resp.coordinator == s'.localAddress
    ensures resp.FindCoordinatorResponse? ==> (resp.fromView <==> resp.responseView.Some?)
    ensures find.dhAlgo != s.config.securityUDPDHAlgo ==>
              s' == RefreshLocalAddress(s)
              && resp == RejectionResponse(DhMismatchMessage(find.dhAlgo, s.config.securityUDPDHAlgo))
    ensures Serving(s, find) ==>
              && resp.FindCoordinatorResponse?
              && s' == AfterServing(RefreshLocalAddress(s), find.memberId.value, find.publicKey)
              && resp.senderId == s'.localAddress
    ensures !Serving(s, find) ==> resp.RejectionResponse? || resp == NoResponse
    ensures Serving(s, find) ==> AnsweredAsSelected(traits, s, find, s', resp)
  {
    var s0 := RefreshLocalAddress(s);
    assert Serving(s0, find) == Serving(s, find) && s0.config == s.config;
    assert find.memberId.Some? ==> ResponseViewFor(s0, find.memberId.value) == ResponseViewFor(s, find.memberId.value);
    s', resp := ProcessFindCoordinatorRequest(traits, s0, find);
  }

  /** `processRequest`: dispatches on the request's kind. */
  method ProcessRequest<M(==,!new)>(traits: MemberTraits<M>, s: LocatorState<M>, req: Request<M>)
    returns (s': LocatorState<M>, resp: Response<M>)
    requires StrictOrder(traits.less)
    ensures req.GetViewRequest? ==> (resp.GetViewResponse? <==> s.view.Some?)
    ensures req.GetViewRequest? && resp.GetViewResponse? ==> Some(resp.view) == s.view
    ensures req.GetViewRequest? && s.view.None? ==> resp == NoResponse
    ensures req.OtherRequest? ==> resp == NoResponse
    ensures resp.GetViewResponse? ==> req.GetViewRequest?
    ensures resp.FindCoordinatorResponse? || resp.RejectionResponse? ==> req.FindCoordinator?
    ensures !req.FindCoordinator? ==> s' == RefreshLocalAddress(s)
    ensures s.localAddress.Some? ==> s'.localAddress == s.localAddress
    ensures s'.view == s.view && s'.isCoordinator == s.isCoordinator && s'.viewFile == s.viewFile
    ensures HintIsNonAuthoritative(s) ==> HintIsNonAuthoritative(s')
    ensures s.isCoordinator && resp.FindCoordinatorResponse? ==> resp.coordinator == s'.localAddress
    ensures resp.FindCoordinatorResponse? ==> (resp.fromView <==> resp.responseView.Some?)
    // the local address is refreshed before any request is handled
    ensures s.localAddress.None? && s.services.Some? ==> s'.localAddress == s.services.value.messengerId
    // a FindCoordinatorRequest is answered as processFindCoordinatorRequest answers it
    ensures req.FindCoordinator? && req.find.dhAlgo != s.config.securityUDPDHAlgo ==>
              s' == RefreshLocalAddress(s)
              && resp == RejectionResponse(DhMismatchMessage(req.find.dhAlgo, s.config.securityUDPDHAlgo))
    ensures req.FindCoordinator? && Serving(s, req.find) ==>
              && resp.FindCoordinatorResponse?
              && s' == AfterServing(RefreshLocalAddress(s), req.find.memberId.value, req.find.publicKey)
              && resp.senderId == s'.localAddress
    ensures req.FindCoordinator? && !Serving(s, req.find) ==> resp.RejectionResponse? || resp == NoResponse
    ensures req.FindCoordinator? && Serving(s, req.find) ==> AnsweredAsSelected(traits, s, req.find, s', resp)
  {
    var s0 := RefreshLocalAddress(s);
    match req
    case GetViewRequest =>
      s', resp := s0, AnswerGetView(s0);
    case FindCoordinator(find) =>
      s', resp := HandleFindCoordinator(traits, s, find);
    case OtherRequest =>
      s', resp := s0, NoResponse;
  }

  /** What a peer locator answered to a `GetViewRequest` during start-up recovery. */
  datatype PeerAnswer<M(==)> = ViewReply(view: View<M>) | OtherReply | NoReply

  /** `recoverFromOtherLocators`: the peers are asked in configured order and the first one
      that replies with a view wins. */
  function RecoverFromOtherLocators<M(==)>(answers: seq<PeerAnswer<M>>): (r: Option<View<M>>)
    ensures r.None? <==> forall i :: 0 <= i < |answers| ==> !answers[i].ViewReply?
    ensures r.Some? ==>
              exists i :: 0 <= i < |answers| && answers[i] == ViewReply(r.value)
                          && forall j :: 0 <= j < i ==> !answers[j].ViewReply?
  {
    match FirstIndex(answers, (a: PeerAnswer<M>) => a.ViewReply?)
    case None => None
    case Some(i) => Some(answers[i].view)
  }

  /** `recover`: a view from a peer becomes the current view as it is; without one, the view
      file is read. `answers` holds each configured peer's answer, in order. */
  function Recover<M(==)>(traits: MemberTraits<M>, h: Host<M>, answers: seq<PeerAnswer<M>>, deleted: bool)
    : (r: Step<Host<M>, ()>)
    requires |answers| == |h.locator.config.locators|
    ensures RecoverFromOtherLocators(answers).Some? ==>
              r == Returned(h.(locator := h.locator.(view := RecoverFromOtherLocators(answers))), ())
    ensures RecoverFromOtherLocators(answers).None? && h.locator.viewFile.None? ==> r == Threw(h, NullPointer)
    ensures RecoverFromOtherLocators(answers).None? && h.locator.viewFile.Some? ==>
              var fromFile := RecoverFromFile(traits, h, h.locator.viewFile.value, deleted);
              && r.state == fromFile.state
              && (r.Threw? <==> fromFile.Threw?)
              && (r.Threw? ==> r.fault == fromFile.fault)
  {
    match RecoverFromOtherLocators(answers)
    case Some(v) => Returned(h.(locator := h.locator.(view := Some(v))), ())
    case None =>
      match h.locator.viewFile
      case None => Threw(h, NullPointer)
      case Some(file) =>
        var fromFile := RecoverFromFile(traits, h, file, deleted);
        if fromFile.Returned? then Returned(fromFile.state, ()) else Threw(fromFile.state, fromFile.fault)
  }

  /** `init`: picks `defaultFile` as the view file unless one was set, then recovers. A
      failure to recover can then only be a corrupt view file. */
  function Init<M(==)>(traits: MemberTraits<M>, h: Host<M>, defaultFile: Path, answers: seq<PeerAnswer<M>>,
                      deleted: bool): (r: Step<Host<M>, ()>)
    requires |answers| == |h.locator.config.locators|
    ensures r.Threw? ==> r.fault == RecoveryFailed(if h.locator.viewFile.Some? then h.locator.viewFile.value else defaultFile)
    ensures HintIsNonAuthoritative(h.locator) ==> HintIsNonAuthoritative(r.state.locator)
    // the chosen file is kept, a peer's view wins, and otherwise the chosen file is read
    ensures var file := if h.locator.viewFile.Some? then h.locator.viewFile.value else defaultFile;
            r.Returned? ==> r.state.locator.viewFile == Some(file)
    ensures var file := if h.locator.viewFile.Some? then h.locator.viewFile.value else defaultFile;
            RecoverFromOtherLocators(answers).Some? ==>
              r == Returned(h.(locator := h.locator.(viewFile := Some(file), view := RecoverFromOtherLocators(answers))), ())
    ensures var file := if h.locator.viewFile.Some? then h.locator.viewFile.value else defaultFile;
            var fromFile := RecoverFromFile(traits, h.(locator := h.locator.(viewFile := Some(file))), file, deleted);
            RecoverFromOtherLocators(answers).None? ==> r.state == fromFile.state && (r.Threw? <==> fromFile.Threw?)
  {
    var file := if h.locator.viewFile.Some? then h.locator.viewFile.value else defaultFile;
    Recover(traits, h.(locator := h.locator.(viewFile := Some(file))), answers, deleted)
  }

  /** Start-up with no peer answering with a view recovers the view saved in the chosen file:
      the locator's recovered view is that view with id -1 and without its locators. */
  lemma InitRecoversSavedView<M>(traits: MemberTraits<M>, h: Host<M>, defaultFile: Path,
                                 answers: seq<PeerAnswer<M>>, deleted: bool, v: View<M>)
    requires |answers| == |h.locator.config.locators|
    requires forall i :: 0 <= i < |answers| ==> !answers[i].ViewReply?
    requires var file := if h.locator.viewFile.Some? then h.locator.viewFile.value else defaultFile;
             file in h.disk && h.disk[file] == ViewImage(h.locator.config.currentOrdinal, v)
    ensures var r := Init(traits, h, defaultFile, answers, deleted);
            && r.Returned?
            && r.state.locator.recoveredView == Some(RecoveredForm(traits, v))
            && r.state.locator.view == h.locator.view
  {
    var file := if h.locator.viewFile.Some? then h.locator.viewFile.value else defaultFile;
    var chosen := h.(locator := h.locator.(viewFile := Some(file)));
    SaveThenRecover(traits, chosen, v, deleted);
    assert SaveView(chosen, v, WriteCompletes) == chosen;
  }

  /** `getMembers`: the current view's members, or else every registrant once, in no
      particular order. */
  method GetMembers<M(==)>(s: LocatorState<M>) returns (r: seq<M>)
    ensures s.view.Some? ==> r == s.view.value.members
    ensures s.view.None? ==> |r| == |s.registrants|
    ensures s.view.None? ==> forall m :: m in r <==> m in s.registrants
  {
    if s.view.Some? {
      return s.view.value.members;
    }
    r := [];
    var rest := s.registrants;
    while rest != {}
      invariant rest <= s.registrants
      invariant forall m :: m in r <==> m in s.registrants - rest
      invariant |r| + |rest| == |s.registrants|
      decreases rest
    {
      var m :| m in rest;
      r := r + [m];
      rest := rest - {m};
    }
  }
}

=== FILE: locator_data.dfy ===
/** The peer locator's state, the services it binds to, and the requests and responses it
    handles. */
module LocatorData {
  import opened Wrappers
  import opened Views
  import opened ViewFiles

  /** The constructor arguments that never change afterwards. */
  datatype Config = Config(
    usePreferredCoordinators: bool,
    networkPartitionDetectionEnabled: bool,
    securityUDPDHAlgo: string,
    /** the other locators, in the order they are configured */
    locators: seq<string>,
    /** `Version.CURRENT_ORDINAL` of the running process */
    currentOrdinal: int)

  /** A snapshot of the local membership services the locator attaches to. */
  datatype Services<M(==)> = Services(
    /** `getMessenger().getMemberID()` */
    messengerId: Option<M>,
    /** `getJoinLeave().getMemberID()` */
    joinLeaveId: Option<M>,
    /** `getJoinLeave().getView()` */
    joinLeaveView: Option<View<M>>,
    /** the messenger's public-key store */
    messengerKeys: map<M, Key>,
    /** `isStopped()` */
    stopped: bool)

  /** Everything a `GMSLocator` instance holds. `services == None` means the locator is not
      bound to membership services; `viewFile == None` means persistence is disabled.
      `publicKeys` is keyed by the possibly-null member id a request carried. */
  datatype LocatorState<M(==)> = LocatorState(
    config: Config,
    services: Option<Services<M>>,
    localAddress: Option<M>,
    view: Option<View<M>>,
    recoveredView: Option<View<M>>,
    registrants: set<M>,
    isCoordinator: bool,
    viewFile: Option<Path>,
    publicKeys: map<Option<M>, Key>)

  /** The locator together with the files on its disk. */
  datatype Host<M(==)> = Host(locator: LocatorState<M>, disk: Disk<M>)

  /** The exceptions the modelled operations can throw. */
  datatype Fault =
    | NullPointer
    | RecoveryFailed(path: Path)

  /** The outcome of an operation that may throw: the state it leaves behind, and either the
      value it returns or the exception it throws. */
  datatype Step<S, T> = Returned(state: S, value: T) | Threw(state: S, fault: Fault)

  /** A `FindCoordinatorRequest`. A null rejection collection is the empty set. */
  datatype FindCoordinatorRequest<M(==)> = FindCoordinatorRequest(
    memberId: Option<M>,
    dhAlgo: string,
    publicKey: Option<Key>,
    rejectedCoordinators: set<M>,
    lastViewId: int)

  /** The request objects `processRequest` is handed. */
  datatype Request<M(==)> =
    | GetViewRequest
    | FindCoordinator(find: FindCoordinatorRequest<M>)
    | OtherRequest

  /** The objects `processRequest` returns; `NoResponse` is a `null` return. */
  datatype Response<M(==)> =
    | NoResponse
    | GetViewResponse(view: View<M>)
    | FindCoordinatorResponse(
        coordinator: Option<M>,
        senderId: Option<M>,
        fromView: bool,
        responseView: Option<View<M>>,
        registrants: set<M>,
        networkPartitionDetectionEnabled: bool,
        usePreferredCoordinators: bool,
        coordinatorPublicKey: Option<Key>)
    | RejectionResponse(rejectionMessage: string)

  /** A freshly constructed locator: unbound, without views or registrants, not coordinator,
      with no view file chosen yet. */
  function NewLocator<M(==)>(config: Config): (s: LocatorState<M>)
    ensures s.services.None? && s.localAddress.None?
    ensures s.view.None? && s.recoveredView.None? && s.viewFile.None?
    ensures s.registrants == {} && s.publicKeys == map[] && !s.isCoordinator
    ensures s.config == config
    ensures HintIsNonAuthoritative(s)
  {
    LocatorState(config, None, None, None, None, {}, false, None, map[])
  }

  /** A recovered view only hints at the coordinator: its id is never a valid view id. */
  ghost predicate HintIsNonAuthoritative<M>(s: LocatorState<M>) {
    s.recoveredView.Some? ==> s.recoveredView.value.viewId < 0
  }
}

=== FILE: management_result.dfy ===
/** `ClusterManagementResult`: the status of a cluster management operation, aggregated from
    the status each member reported. */
module ManagementResult {
  import opened Wrappers

  /** `ClusterManagementResult.StatusCode`. */
  datatype StatusCode =
    | IllegalArgument
    | Unauthenticated
    | Unauthorized
    | EntityExists
    | EntityNotFound
    | Error
    | FailToPersist
    | Ok

  /** One member's report: whether realizing the configuration there succeeded. */
  datatype RealizationResult = RealizationResult(memberName: string, success: bool, message: string)

  /** The result object; `statusMessage == None` is a message never set. `R` is the type of the
      returned configuration elements. */
  datatype ClusterManagementResult<R> = ClusterManagementResult(
    memberStatuses: seq<RealizationResult>,
    statusCode: StatusCode,
    statusMessage: Option<string>,
    result: seq<R>)

  /** `isSuccessful`: only OK reads as success; every other code, not just ERROR, is a failure. */
  function IsSuccessful<R>(r: ClusterManagementResult<R>): (ok: bool)
    ensures ok <==> r.statusCode == Ok
  {
    r.statusCode == Ok
  }

  /** The no-argument constructor: OK, no message, no member statuses, no results. */
  function NewResult<R>(): (r: ClusterManagementResult<R>)
    ensures r.statusCode == Ok && IsSuccessful(r)
    ensures r.memberStatuses == [] && r.result == [] && r.statusMessage.None?
  {
    ClusterManagementResult([], Ok, None, [])
  }

  /** `setStatus(boolean, String)`: a failure forces ERROR, a success keeps the current code;
      the message is replaced either way. */
  function SetStatus<R>(r: ClusterManagementResult<R>, success: bool, message: string): (r': ClusterManagementResult<R>)
    ensures r'.statusMessage == Some(message)
    ensures !success ==> r'.statusCode == Error
    ensures success ==> r'.statusCode == r.statusCode
    ensures r'.memberStatuses == r.memberStatuses && r'.result == r.result
  {
    var code := if !success then Error else r.statusCode;
    r.(statusCode := code, statusMessage := Some(message))
  }

  /** `setStatus(StatusCode, String)`: sets any code and message. */
  function SetStatusCode<R>(r: ClusterManagementResult<R>, code: StatusCode, message: string)
    : (r': ClusterManagementResult<R>)
    ensures r'.statusCode == code && r'.statusMessage == Some(message)
    ensures r'.memberStatuses == r.memberStatuses && r'.result == r.result
  {
    r.(statusCode := code, statusMessage := Some(message))
  }

  /** The `(boolean, String)` constructor. */
  function NewResultWithSuccess<R>(success: bool, message: string): (r: ClusterManagementResult<R>)
    ensures IsSuccessful(r) <==> success
    ensures r.statusCode == if success then Ok else Error
    ensures r.statusMessage == Some(message) && r.memberStatuses == [] && r.result == []
  {
    SetStatus(NewResult(), success, message)
  }

  /** The `(StatusCode, String)` constructor. */
  function NewResultWithCode<R>(code: StatusCode, message: string): (r: ClusterManagementResult<R>)
    ensures IsSuccessful(r) <==> code == Ok
    ensures r.statusCode == code && r.statusMessage == Some(message)
    ensures r.memberStatuses == [] && r.result == []
  {
    ClusterManagementResult([], code, Some(message), [])
  }

  /** `addMemberStatus(RealizationResult)`: appends the report; a failed report forces ERROR. */
  function AddMemberStatus<R>(r: ClusterManagementResult<R>, status: RealizationResult)
    : (r': ClusterManagementResult<R>)
    ensures |r'.memberStatuses| == |r.memberStatuses| + 1
    ensures r'.memberStatuses[..|r.memberStatuses|] == r.memberStatuses
    ensures r'.memberStatuses[|r.memberStatuses|] == status
    ensures !status.success ==> r'.statusCode == Error
    ensures status.success ==> r'.statusCode == r.statusCode
    ensures r'.statusMessage == r.statusMessage && r'.result == r.result
  {
    var code := if !status.success then Error else r.statusCode;
    r.(memberStatuses := r.memberStatuses + [status], statusCode := code)
  }

  /** `addMemberStatus(String, boolean, String)`: the same, for a report built from its parts. */
  function AddMemberStatusOf<R>(r: ClusterManagementResult<R>, member: string, success: bool, message: string)
    : (r': ClusterManagementResult<R>)
    ensures r'.memberStatuses == r.memberStatuses + [RealizationResult(member, success, message)]
    ensures IsSuccessful(r') <==> IsSuccessful(r) && success
    ensures !success ==> r'.statusCode == Error
    ensures success ==> r'.statusCode == r.statusCode
    ensures r'.statusMessage == r.statusMessage && r'.result == r.result
  {
    AddMemberStatus(r, RealizationResult(member, success, message))
  }

  /** `setResult`. */
  function SetResult<R>(r: ClusterManagementResult<R>, result: seq<R>): (r': ClusterManagementResult<R>)
    ensures r'.result == result
    ensures r'.(result := r.result) == r
  {
    r.(result := result)
  }

  /** ERROR is never cleared by reporting a member status or by `setStatus(boolean, ...)`. */
  lemma ErrorIsAbsorbing<R>(r: ClusterManagementResult<R>, status: RealizationResult, success: bool, message: string)
    requires r.statusCode == Error
    ensures AddMemberStatus(r, status).statusCode == Error
    ensures SetStatus(r, success, message).statusCode == Error
    ensures !IsSuccessful(AddMemberStatus(r, status)) && !IsSuccessful(SetStatus(r, success, message))
  {
  }

  /** Reporting each of `statuses` in turn. */
  function AddMemberStatuses<R>(r: ClusterManagementResult<R>, statuses: seq<RealizationResult>)
    : ClusterManagementResult<R>
    decreases |statuses|
  {
    if statuses == [] then r
    else AddMemberStatuses(AddMemberStatus(r, statuses[0]), statuses[1..])
  }

  /** After reporting several member statuses, the reports are appended in order, and the code
      is ERROR exactly when some report failed or it was ERROR already; otherwise it is kept. */
  lemma {:induction false} AggregatedStatus<R>(r: ClusterManagementResult<R>, statuses: seq<RealizationResult>)
    ensures AddMemberStatuses(r, statuses).memberStatuses == r.memberStatuses + statuses
    ensures (exists i :: 0 <= i < |statuses| && !statuses[i].success) ==>
              AddMemberStatuses(r, statuses).statusCode == Error
    ensures (forall i :: 0 <= i < |statuses| ==> statuses[i].success) ==>
              AddMemberStatuses(r, statuses).statusCode == r.statusCode
    ensures AddMemberStatuses(r, statuses).statusMessage == r.statusMessage
    decreases |statuses|
  {
    if statuses != [] {
      var next := AddMemberStatus(r, statuses[0]);
      AggregatedStatus(next, statuses[1..]);
      assert r.memberStatuses + statuses == next.memberStatuses + statuses[1..];
      if !statuses[0].success {
        ErrorStaysAfterStatuses(next, statuses[1..]);
      }
      if exists i :: 0 <= i < |statuses| && !statuses[i].success {
        var i :| 0 <= i < |statuses| && !statuses[i].success;
        if i > 0 {
          assert !statuses[1..][i - 1].success;
        }
      }
    }
  }

  /** A result that is already ERROR stays ERROR whatever is reported. */
  lemma {:induction false} ErrorStaysAfterStatuses<R>(r: ClusterManagementResult<R>, statuses: seq<RealizationResult>)
    requires r.statusCode == Error
    ensures AddMemberStatuses(r, statuses).statusCode == Error
    decreases |statuses|
  {
    if statuses != [] {
      ErrorStaysAfterStatuses(AddMemberStatus(r, statuses[0]), statuses[1..]);
    }
  }

  /** A fresh result is successful exactly when every member reported success. */
  lemma FreshResultSucceedsIffAllMembersDo<R>(statuses: seq<RealizationResult>)
    ensures IsSuccessful(AddMemberStatuses(NewResult<R>(), statuses)) <==>
              forall i :: 0 <= i < |statuses| ==> statuses[i].success
  {
    AggregatedStatus(NewResult<R>(), statuses);
  }

  /** `setStatus(boolean, ...)` can only take success away. */
  lemma SetStatusNeverRestoresSuccess<R>(r: ClusterManagementResult<R>, success: bool, message: string)
    ensures IsSuccessful(SetStatus(r, success, message)) <==> IsSuccessful(r) && success
  {
  }
}

=== FILE: persistence.dfy ===
/** Saving the membership view to the locator's view file and recovering it from there. */
module Persistence {
  import opened Wrappers
  import opened Seqs
  import opened Views
  import opened ViewFiles
  import opened LocatorData

  /** How writing the view file ends: it completes, or it throws and leaves behind whatever
      the failed write left on disk (`None`: no file). */
  datatype WriteOutcome<M(==)> = WriteCompletes | WriteFails(residue: Option<seq<Item<M>>>)

  /** `saveView`: with persistence disabled nothing happens. Otherwise the file is rewritten
      with the stamp, the current version and the view; if the write throws, persistence is
      disabled for good. A failed delete of the old file is only logged. */
  function SaveView<M(==)>(h: Host<M>, v: View<M>, outcome: WriteOutcome<M>): (r: Host<M>)
    ensures h.locator.viewFile.None? ==> r == h
    ensures r.locator == h.locator || r.locator == h.locator.(viewFile := None)
    ensures h.locator.viewFile.Some? && outcome.WriteCompletes? ==>
              && r.locator == h.locator
              && h.locator.viewFile.value in r.disk
              && ParseImage(r.disk[h.locator.viewFile.value])
                 == Stamped(h.locator.config.currentOrdinal, Encoded(v))
    ensures h.locator.viewFile.Some? && outcome.WriteFails? ==> r.locator.viewFile.None?
    ensures forall p :: p in h.disk && (h.locator.viewFile.None? || p != h.locator.viewFile.value) ==>
              p in r.disk && r.disk[p] == h.disk[p]
  {
    match h.locator.viewFile
    case None => h
    case Some(file) =>
      match outcome
      case WriteCompletes =>
        h.(disk := h.disk[file := ViewImage(h.locator.config.currentOrdinal, v)])
      case WriteFails(residue) =>
        var disk := if residue.Some? then h.disk[file := residue.value] else h.disk - {file};
        Host(h.locator.(viewFile := None), disk)
  }

  /** The loop of `recoverFromFile` that walks a copy of the member list and removes every
      member of locator kind from the view. */
  function RemoveLocators<M(==)>(traits: MemberTraits<M>, v: View<M>, snapshot: seq<M>): (r: View<M>)
    ensures r.viewId == v.viewId && r.keys == v.keys
    ensures forall i :: 0 <= i < |r.members| ==>
              r.members[i] in v.members && !(traits.isLocator(r.members[i]) && r.members[i] in snapshot)
    ensures forall i :: 0 <= i < |v.members| && !(traits.isLocator(v.members[i]) && v.members[i] in snapshot) ==>
              v.members[i] in r.members
    decreases |snapshot|
  {
    if snapshot == [] then v
    else
      var m := snapshot[0];
      RemoveLocators(traits, if traits.isLocator(m) then Remove(v, m) else v, snapshot[1..])
  }

  /** The members the walk over `snapshot` keeps: all but the snapshot's locators. */
  function KeptBy<M(==)>(traits: MemberTraits<M>, snapshot: seq<M>): M -> bool {
    x => !(traits.isLocator(x) && x in snapshot)
  }

  /** The members that are not of locator kind. */
  function NotLocator<M>(traits: MemberTraits<M>): M -> bool {
    x => !traits.isLocator(x)
  }

  /** Removing the snapshot's locators one at a time, for any snapshot, is a single filter of
      the view's members: their order and their copies survive the walk. */
  lemma {:induction false} RemoveLocatorsFilters<M>(traits: MemberTraits<M>, v: View<M>, snapshot: seq<M>)
    ensures RemoveLocators(traits, v, snapshot) == v.(members := Filter(v.members, KeptBy(traits, snapshot)))
    decreases |snapshot|
  {
    if snapshot == [] {
      FilterKeepsAll(v.members, KeptBy(traits, snapshot));
    } else {
      var m := snapshot[0];
      var rest := snapshot[1..];
      assert snapshot == [m] + rest;
      if traits.isLocator(m) {
        RemoveFilters(v, m);
        RemoveLocatorsFilters(traits, Remove(v, m), rest);
        FilterTwice(v.members, IsNot(m), KeptBy(traits, rest), KeptBy(traits, snapshot));
      } else {
        RemoveLocatorsFilters(traits, v, rest);
        FilterExtensional(v.members, KeptBy(traits, rest), KeptBy(traits, snapshot));
      }
    }
  }

  /** The view `recoverFromFile` keeps: id -1 (not a valid view) and no locators. */
  function RecoveredForm<M(==)>(traits: MemberTraits<M>, v: View<M>): (r: View<M>)
    ensures r.viewId == -1 && r.keys == v.keys
    ensures forall i :: 0 <= i < |r.members| ==> r.members[i] in v.members && !traits.isLocator(r.members[i])
    ensures forall i :: 0 <= i < |v.members| && !traits.isLocator(v.members[i]) ==> v.members[i] in r.members
    // exactly the non-locators of the view, every copy, in view order
    ensures r.members == Filter(v.members, NotLocator(traits))
  {
    RemoveLocatorsFilters(traits, v.(viewId := -1), v.members);
    FilterExtensional(v.members, KeptBy(traits, v.members), NotLocator(traits));
    RemoveLocators(traits, v.(viewId := -1), v.members)
  }

  /** The handler of a view file that could not be read: the file is deleted if possible; a
      file that could not be deleted disables persistence. Either way recovery fails. */
  function RecoveryFailure<M(==)>(h: Host<M>, file: Path, deleted: bool): (r: Step<Host<M>, bool>)
    ensures r.Threw? && r.fault == RecoveryFailed(file)
    ensures deleted ==> r.state == h.(disk := h.disk - {file})
    ensures !deleted ==> r.state == h.(locator := h.locator.(viewFile := None))
  {
    if deleted then Threw(h.(disk := h.disk - {file}), RecoveryFailed(file))
    else Threw(h.(locator := h.locator.(viewFile := None)), RecoveryFailed(file))
  }

  /** `recoverFromFile(file)`. `deleted` says whether deleting the file, should reading it fail,
      succeeds. */
  function RecoverFromFile<M(==)>(traits: MemberTraits<M>, h: Host<M>, file: Path, deleted: bool)
    : (r: Step<Host<M>, bool>)
    ensures file !in h.disk ==> r == Returned(h, false)
    ensures file in h.disk && ParseImage(h.disk[file]).WrongStamp? ==> r == Returned(h, false)
    ensures r.Returned? && !r.value ==> r.state == h
    ensures r.Returned? && r.value ==>
              && file in h.disk
              && ParseImage(h.disk[file]).Stamped?
              && ParseImage(h.disk[file]).payload.Encoded?
              && r.state == h.(locator := h.locator.(recoveredView :=
                   Some(RecoveredForm(traits, ParseImage(h.disk[file]).payload.view))))
    // a stamped file that decodes to a view is recovered; a corrupt one is fatal
    ensures file in h.disk && ParseImage(h.disk[file]).Stamped? && ParseImage(h.disk[file]).payload.Encoded? ==>
              r.Returned? && r.value
    ensures file in h.disk && (ParseImage(h.disk[file]).Malformed? ||
                               (ParseImage(h.disk[file]).Stamped? && !ParseImage(h.disk[file]).payload.Encoded?)) ==>
              r.Threw?
    ensures r.Threw? ==> r.fault == RecoveryFailed(file) && file in h.disk
    // each way of failing changes exactly what the failure handler changes
    ensures file in h.disk && (ParseImage(h.disk[file]).Malformed? ||
                               (ParseImage(h.disk[file]).Stamped? && ParseImage(h.disk[file]).payload.Undecodable?)) ==>
              r == RecoveryFailure(h, file, deleted)
    ensures file in h.disk && ParseImage(h.disk[file]).Stamped? && ParseImage(h.disk[file]).payload.NullObject? ==>
              r == RecoveryFailure(h.(locator := h.locator.(recoveredView := None)), file, deleted)
    ensures r.Threw? && !deleted ==> r.state.locator.viewFile.None?
    ensures r.Threw? && r.state.locator.viewFile != h.locator.viewFile ==>
              !deleted && r.state.locator.viewFile.None?
    ensures r.Threw? && deleted ==> file !in r.state.disk
  {
    if file !in h.disk then Returned(h, false)
    else match ParseImage(h.disk[file])
      case WrongStamp => Returned(h, false)
      case Malformed => RecoveryFailure(h, file, deleted)
      case Stamped(_, payload) =>
        match payload
        case Encoded(v) =>
          Returned(h.(locator := h.locator.(recoveredView := Some(RecoveredForm(traits, v)))), true)
        case NullObject =>
          // the field is assigned null before the id is set, which then throws
          RecoveryFailure(h.(locator := h.locator.(recoveredView := None)), file, deleted)
        case Undecodable =>
          RecoveryFailure(h, file, deleted)
  }

  /** Saving a view and then recovering from the same file yields that view with id -1 and
      without its locators, and leaves persistence enabled. */
  lemma SaveThenRecover<M>(traits: MemberTraits<M>, h: Host<M>, v: View<M>, deleted: bool)
    requires h.locator.viewFile.Some?
    ensures var saved := SaveView(h, v, WriteCompletes);
            var r := RecoverFromFile(traits, saved, h.locator.viewFile.value, deleted);
            && r.Returned? && r.value
            && r.state.locator.recoveredView == Some(RecoveredForm(traits, v))
            && r.state.locator.viewFile == h.locator.viewFile
  {
  }

  /** Once a write has failed, every later save leaves the host untouched. */
  lemma FailedWriteDisablesPersistence<M>(h: Host<M>, v: View<M>, residue: Option<seq<Item<M>>>,
                                             w: View<M>, later: WriteOutcome<M>)
    requires h.locator.viewFile.Some?
    ensures var failed := SaveView(h, v, WriteFails(residue));
            SaveView(failed, w, later) == failed
  {
  }

  /** Recovering from a file keeps a recovered view's id negative. */
  lemma RecoverFromFileKeepsHintNonAuthoritative<M>(traits: MemberTraits<M>, h: Host<M>, file: Path, deleted: bool)
    requires HintIsNonAuthoritative(h.locator)
    ensures HintIsNonAuthoritative(RecoverFromFile(traits, h, file, deleted).state.locator)
  {
  }
}

=== FILE: seqs.dfy ===
/** Order-preserving filtering and first-match search over sequences. */
module Seqs {
  import opened Wrappers

  /** The elements of `s` that satisfy `p`, in their original order. */
  function Filter<T>(s: seq<T>, p: T -> bool): (r: seq<T>)
    ensures |r| <= |s|
    ensures forall i :: 0 <= i < |r| ==> r[i] in s && p(r[i])
    ensures forall i :: 0 <= i < |s| && p(s[i]) ==> s[i] in r
    decreases |s|
  {
    if s == [] then []
    else if p(s[0]) then [s[0]] + Filter(s[1..], p)
    else Filter(s[1..], p)
  }

  /** Filtering a sequence extended by one element extends the filtered sequence by at most
      that element. */
  lemma {:induction false} FilterSnoc<T>(s: seq<T>, x: T, p: T -> bool)
    ensures Filter(s + [x], p) == Filter(s, p) + (if p(x) then [x] else [])
    decreases |s|
  {
    if s == [] {
      assert s + [x] == [x];
    } else {
      assert (s + [x])[1..] == s[1..] + [x];
      FilterSnoc(s[1..], x, p);
    }
  }

  /** Filtering distributes over concatenation. */
  lemma {:induction false} FilterAppend<T>(s: seq<T>, t: seq<T>, p: T -> bool)
    ensures Filter(s + t, p) == Filter(s, p) + Filter(t, p)
    decreases |s|
  {
    if s == [] {
      assert s + t == t;
    } else {
      assert (s + t)[1..] == s[1..] + t;
      FilterAppend(s[1..], t, p);
    }
  }

  /** Two predicates that agree on every element of `s` filter it alike. */
  lemma {:induction false} FilterExtensional<T>(s: seq<T>, p: T -> bool, q: T -> bool)
    requires forall i :: 0 <= i < |s| ==> p(s[i]) == q(s[i])
    ensures Filter(s, p) == Filter(s, q)
    decreases |s|
  {
    if s != [] {
      FilterExtensional(s[1..], p, q);
    }
  }

  /** A predicate that holds of every element keeps the whole sequence. */
  lemma {:induction false} FilterKeepsAll<T>(s: seq<T>, p: T -> bool)
    requires forall i :: 0 <= i < |s| ==> p(s[i])
    ensures Filter(s, p) == s
    decreases |s|
  {
    if s != [] {
      FilterKeepsAll(s[1..], p);
    }
  }

  /** Filtering twice is filtering once by the conjunction. */
  lemma {:induction false} FilterTwice<T>(s: seq<T>, p: T -> bool, q: T -> bool, both: T -> bool)
    requires forall x :: both(x) == (p(x) && q(x))
    ensures Filter(Filter(s, p), q) == Filter(s, both)
    decreases |s|
  {
    if s != [] {
      FilterTwice(s[1..], p, q, both);
    }
  }

  /** Two predicates that never hold together select, between them, as many elements as their
      disjunction does. */
  lemma {:induction false} FilterDisjointCount<T>(s: seq<T>, p: T -> bool, q: T -> bool, either: T -> bool)
    requires forall x :: !(p(x) && q(x))
    requires forall x :: either(x) == (p(x) || q(x))
    ensures |Filter(s, either)| == |Filter(s, p)| + |Filter(s, q)|
    decreases |s|
  {
    if s != [] {
      FilterDisjointCount(s[1..], p, q, either);
    }
  }

  /** `a` is `b` with some elements left out and the rest in their order. */
  predicate IsSubsequence<T(==)>(a: seq<T>, b: seq<T>)
    decreases |b|
  {
    if a == [] then true
    else if b == [] then false
    else if a[0] == b[0] then IsSubsequence(a[1..], b[1..])
    else IsSubsequence(a, b[1..])
  }

  /** Filtering keeps the order: the result is a subsequence of the input. */
  lemma {:induction false} FilterIsSubsequence<T>(s: seq<T>, p: T -> bool)
    ensures IsSubsequence(Filter(s, p), s)
    decreases |s|
  {
    if s != [] {
      FilterIsSubsequence(s[1..], p);
      if p(s[0]) {
        assert Filter(s, p)[1..] == Filter(s[1..], p);
      } else if Filter(s, p) != [] {
        assert p(Filter(s, p)[0]);
      }
    }
  }

  /** Filtering keeps every copy of an element it selects and no copy of one it rejects. */
  lemma {:induction false} FilterMultiplicity<T>(s: seq<T>, p: T -> bool, x: T)
    ensures multiset(Filter(s, p))[x] == if p(x) then multiset(s)[x] else 0
    decreases |s|
  {
    if s != [] {
      FilterMultiplicity(s[1..], p, x);
      assert s == [s[0]] + s[1..];
      assert multiset(s) == multiset([s[0]]) + multiset(s[1..]);
    }
  }

  /** The index of the first element of `s` satisfying `p`, if any. */
  function FirstIndex<T>(s: seq<T>, p: T -> bool): (r: Option<nat>)
    ensures r.Some? ==> r.value < |s| && p(s[r.value])
    ensures r.Some? ==> forall j :: 0 <= j < r.value ==> !p(s[j])
    ensures r.None? <==> forall j :: 0 <= j < |s| ==> !p(s[j])
    decreases |s|
  {
    if s == [] then None
    else if p(s[0]) then Some(0)
    else match FirstIndex(s[1..], p)
      case None => None
      case Some(i) => Some(i + 1)
  }
}

=== FILE: view_files.dfy ===
/** The locator's persistent view file: a stamp, a format version and a serialized view.

    The file is modelled as the sequence of items written to it: `writeInt` items and one
    serialized object. The object encoding itself is not modelled; a payload either decodes
    to a view, decodes to `null`, or cannot be decoded at all. */
module ViewFiles {
  import opened Views

  /** `GMSLocator.LOCATOR_FILE_STAMP`. */
  const LocatorFileStamp: int := 0x7b8cf741

  /** A file path. */
  type Path = string

  /** What deserializing the object item yields. */
  datatype Payload<M(==)> = Encoded(view: View<M>) | NullObject | Undecodable

  /** One item of the file, as written by `writeInt` or `DataSerializer.writeObject`. */
  datatype Item<M(==)> = IntItem(n: int) | ObjectItem(payload: Payload<M>)

  /** The files that exist, with their contents. */
  type Disk<M(==)> = map<Path, seq<Item<M>>>

  /** The result of reading a view file's header and payload. */
  datatype Parsed<M(==)> =
    | WrongStamp
    | Malformed
    | Stamped(version: int, payload: Payload<M>)

  /** The contents `saveView` writes: the stamp, the writer's version, then the view. */
  function ViewImage<M(==)>(version: int, v: View<M>): (image: seq<Item<M>>)
    ensures ParseImage(image) == Stamped(version, Encoded(v))
  {
    [IntItem(LocatorFileStamp), IntItem(version), ObjectItem(Encoded(v))]
  }

  /** Reading a file as `recoverFromFile` does: an int that must equal the stamp, an int
      version, then one object. A first item that is an int other than the stamp makes the file
      unusable but not corrupt; any other missing or misplaced item is a read failure. */
  function ParseImage<M(==)>(image: seq<Item<M>>): (r: Parsed<M>)
    ensures r.WrongStamp? <==> |image| >= 1 && image[0].IntItem? && image[0].n != LocatorFileStamp
    ensures r.Stamped? <==>
              && |image| >= 3 && image[0] == IntItem(LocatorFileStamp)
              && image[1].IntItem? && image[2].ObjectItem?
    ensures r.Stamped? ==> r.version == image[1].n && r.payload == image[2].payload
  {
    if |image| == 0 || !image[0].IntItem? then Malformed
    else if image[0].n != LocatorFileStamp then WrongStamp
    else if |image| < 2 || !image[1].IntItem? then Malformed
    else if |image| < 3 || !image[2].ObjectItem? then Malformed
    else Stamped(image[1].n, image[2].payload)
  }
}

=== FILE: views.dfy ===
/** Member identities and membership views as the peer locator sees them.

    A member identity is a type parameter `M`. The facts the locator asks of an identity
    (its total order, its identity-without-view-id comparison, its process kind and its two
    coordinator flags) belong to the member class, whose source is not part of this model;
    they are gathered in `MemberTraits` and passed to every operation that needs them. */
module Views {
  import opened Wrappers
  import opened Seqs

  /** Raw public-key bytes (a Java `byte[]`). */
  type Key = seq<bv8>

  /** What the locator may ask of a member identity. */
  datatype MemberTraits<!M> = MemberTraits(
    /** `a.compareTo(b) < 0` */
    less: (M, M) -> bool,
    /** `a.compareTo(b, false) == 0`: equal when the view id is ignored */
    sameIdentity: (M, M) -> bool,
    /** `getVmKind() == LOCATOR_DM_TYPE` */
    isLocator: M -> bool,
    /** `getNetMember().preferredForCoordinator()` */
    preferredForCoordinator: M -> bool,
    /** `getNetMember().isNetworkPartitionDetectionEnabled()` */
    partitionDetectionEnabled: M -> bool)

  /** `less` is irreflexive and transitive, as a `compareTo` ordering must be. */
  ghost predicate StrictOrder<M(!new)>(less: (M, M) -> bool) {
    && (forall x :: !less(x, x))
    && (forall x, y, z :: less(x, y) && less(y, z) ==> less(x, z))
  }

  /** Any two distinct identities are ordered one way or the other. */
  ghost predicate Connected<M(!new)>(less: (M, M) -> bool) {
    forall x, y :: x != y ==> less(x, y) || less(y, x)
  }

  /** A membership view: its id, its members in view order and their public keys. */
  datatype View<M(==)> = View(viewId: int, members: seq<M>, keys: map<M, Key>)

  /** `NetView.remove`: the view without `m`; the id and key map are kept. */
  function Remove<M(==)>(v: View<M>, m: M): (r: View<M>)
    ensures r.viewId == v.viewId && r.keys == v.keys
    ensures forall i :: 0 <= i < |r.members| ==> r.members[i] in v.members && r.members[i] != m
    ensures forall i :: 0 <= i < |v.members| && v.members[i] != m ==> v.members[i] in r.members
    ensures m !in v.members ==> r == v
    // every copy of every other member is kept, in view order
    ensures multiset(r.members) == multiset(v.members)[m := 0]
    ensures IsSubsequence(r.members, v.members)
  {
    var kept := Filter(v.members, IsNot(m));
    FilterIsSubsequence(v.members, IsNot(m));
    FilterRemovesAll(v.members, m);
    if m !in v.members then
      FilterKeepsAll(v.members, IsNot(m));
      v
    else
      v.(members := kept)
  }

  /** The members other than `m`. */
  function IsNot<M(==)>(m: M): M -> bool {
    x => x != m
  }

  /** Filtering out `m` drops all its copies and keeps every copy of everything else. */
  lemma FilterRemovesAll<M>(s: seq<M>, m: M)
    ensures multiset(Filter(s, IsNot(m))) == multiset(s)[m := 0]
  {
    forall x
      ensures multiset(Filter(s, IsNot(m)))[x] == multiset(s)[m := 0][x]
    {
      FilterMultiplicity(s, IsNot(m), x);
    }
  }

  /** The members `Remove` keeps are the view's members filtered by `IsNot(m)`. */
  lemma RemoveFilters<M>(v: View<M>, m: M)
    ensures Remove(v, m).members == Filter(v.members, IsNot(m))
  {
    if m !in v.members {
      FilterKeepsAll(v.members, IsNot(m));
    }
  }

  /** `NetView.getCoordinator(rejections)`: the first member, in view order, that is preferred
      for coordinator and not rejected; failing that, the first member that is not rejected.
      `getCoordinator()` is the same choice with no rejections. */
  function Coordinator<M(==)>(traits: MemberTraits<M>, v: View<M>, rejections: set<M>): (r: Option<M>)
    ensures r.Some? ==> r.value in v.members && r.value !in rejections
    ensures r.None? <==> forall i :: 0 <= i < |v.members| ==> v.members[i] in rejections
    ensures r.Some? && !traits.preferredForCoordinator(r.value) ==>
              forall i :: 0 <= i < |v.members| && v.members[i] !in rejections ==>
                !traits.preferredForCoordinator(v.members[i])
    // first in view order: every member before it is rejected or, when it is preferred, not preferred
    ensures r.Some? ==>
              exists i :: 0 <= i < |v.members| && v.members[i] == r.value &&
                forall j :: 0 <= j < i ==>
                  v.members[j] in rejections ||
                  (traits.preferredForCoordinator(r.value) && !traits.preferredForCoordinator(v.members[j]))
  {
    match FirstIndex(v.members, m => traits.preferredForCoordinator(m) && m !in rejections)
    case Some(i) => Some(v.members[i])
    case None =>
      match FirstIndex(v.members, m => m !in rejections)
      case Some(i) => Some(v.members[i])
      case None => None
  }

  /** `NetView.getPublicKey(m)`: the key the view records for `m`, if any. */
  function ViewKey<M(==)>(v: View<M>, m: Option<M>): (r: Option<Key>)
    ensures r.Some? <==> m.Some? && m.value in v.keys
    ensures r.Some? ==> r.value == v.keys[m.value]
  {
    if m.Some? && m.value in v.keys then Some(v.keys[m.value]) else None
  }
}

=== FILE: wrappers.dfy ===
/** Optional values and results with an error, used throughout the model in place of
    Java's null and of exceptions. */
module Wrappers {

  /** A value that may be absent; `None` stands for a Java `null` or a Python `None`. */
  datatype Option<+T> = None | Some(value: T)

  /** Either a normal result or the error a call raises instead of returning. */
  datatype Result<+T, +E> = Success(value: T) | Failure(error: E)
}
